=== FILE: README.md ===
# baloo assertion engine in Dafny

This project models the core of baloo, an HTTP end-to-end testing library for
Go. The core has four parts:

- **Assertions** (`assert/`): functions that look at an HTTP response and
  return an error or nil. They check the status code, header values, the body,
  the Content-Type, JSON equality and JSON-schema validity.
- **Expectation suite** (`expect.go`): collects assertions in order, runs them
  against the response until the first one fails, and reports the outcome to
  the bound test.
- **Single-use guard** (`request.go`): a request hands out an expectation suite
  at most once.
- **Log helpers** (`log.go`): two pure string helpers used by the logger.

How the Go program is represented:

- **Exchange.** The exchange is immutable data. A `Response` holds a status
  code, a header multimap and a body. The body is either the bytes it reads to,
  or a read error.
- **Body reads.** "Read the body and put it back" is `Http.ReadBody`. It returns
  the bytes and an equal response.
- **Header lookup.** This is `http.Header.Get`. It canonicalises the key the way
  `textproto.CanonicalMIMEHeaderKey` does, then takes the first value.
- **Collaborators as parameters.** Go's `regexp` (`Regex.Engine`: does a
  pattern compile, does it match somewhere in a text), the `encoding/json`
  text decoder, the gojsonschema validator and the content-type alias table of
  gentleman are all parameters. So are the functions a user hands in. They are
  grouped in `Assertions.Env`.
- **Serialisation.** `json.Marshal` of a decoded map is modelled concretely in
  `Json.Marshal`: keys sorted bytewise, HTML-safe escaping, no whitespace.
  Escaping follows `encoding/json` before Go 1.22, which writes backspace and
  form feed as `\u0008` and `\u000c` (Go 1.22 writes `\b` and `\f`).
  `JsonReader.MarshalInjective` proves it injective: a reader parses every
  canonical text back to its value. So "the two canonical texts are equal"
  means exactly "the two values are equal".
- **Errors.** An error is a structured `Failures.Failure`. `Failures.Message`
  renders the `fmt.Errorf` text of each failure, with `%d` written by
  `strconv.Itoa` and `%#v` of a string by `strconv.Quote`. The schema report
  is the exception: `Message` gives the report verbatim, as intended, and not
  the garbled text `fmt.Errorf(msg)` produces from a violation holding '%'
  (see "## Findings").

Modules, in dependency order:

| module | file | models |
|---|---|---|
| `Wrappers`, `Text` | wrappers.dfy, text.dfy | `Option`/`Result`, decimal conversion, trimming, Go quoting |
| `Http`, `Regex` | http.dfy, regex.dfy | header keys and lookup, the exchange, body re-reading, the regex engine |
| `Json`, `JsonReader` | json.dfy, json_reader.dfy | JSON values, the canonical text, and its reader used to prove injectivity |
| `Failures` | failures.dfy | the errors and their texts |
| `StatusAssert`, `HeaderAssert`, `BodyAssert`, `TypeAssert`, `JsonAssert`, `SchemaAssert` | status.dfy … schema.dfy | one module per file of `assert/` |
| `Assertions` | assertion.dfy | `assert.Func` as a variant type with `Eval`, and the named status ranges |
| `Expectations` | expect.dfy | the builder methods, `run`, `Done` |
| `Requests` | request.dfy | the `tested` flag, `Expect`/`Assert`, `NewRequest`, `SetClient`, `Clone` |
| `Log` | log.dfy | `tabify` and the file-name truncation of `logf` |

## Model

| member | source | states |
|---|---|---|
| `Http.Get` | assert/header.go:13 | the first value stored under the canonical form of the key when that key has values, and "" otherwise; a non-empty result always comes from the canonical key |
| `Http.GetIgnoresCase` | assert/header.go:25 | for a token key, lookup ignores letter case: two spellings that differ only in case find the same value |
| `Http.GetFirstValue` | assert/header.go:13 | a value stored under a canonical key is found by every case-spelling of that key; an absent or empty entry reads as "" |
| `Http.ReadBody` | assert/body.go:12-20 | a read returns the whole body and leaves an equal response; a read error is returned with the response as it was |
| `Http.RepeatedReadsAgree` | assert/body.go:17-18 | a second read of the refilled body gives the same result as the first |
| `Json.Marshal` | assert/json.go:36-38 | the canonical text `json.Marshal` writes is never empty; its partners `JsonReader.ReadMarshal` and `JsonReader.MarshalInjective` show it determines the value |
| `Json.MarshalKind` | assert/json.go:36-38 | the first character of a canonical text tells the kind of value: '{' object, '[' array, '"' string, a digit or '-' number, 'n' null, 't' or 'f' boolean |
| `Json.Normalize` | assert/json.go:16-22 | decoding into an interface keeps the kind of every value and turns every number into the one canonical spelling of its value |
| `Json.StripSameDecimal` | assert/json.go:16-22 | two decimals get the same canonical spelling iff they have the same value |
| `Json.NormalizeNumbers` | assert/json.go:16-22 | two decoded numbers are equal iff their values are equal |
| `Regex.MatchString` | assert/header.go:14 | the regex error is discarded: a pattern that does not compile never matches; a compiling one matches iff the search finds it |
| `StatusAssert.StatusEqual` | assert/status.go:39-46 | passes iff the status equals the code; the failure carries the status and the code |
| `StatusAssert.StatusRange` | assert/status.go:50-58 | passes iff start <= status <= end, both ends included; the failure carries status, start and end |
| `StatusAssert.EmptyRangeRejects` | assert/status.go:52 | a range whose start exceeds its end rejects every status |
| `StatusAssert.RangeSplit` | assert/status.go:50-58 | splitting a range at a midpoint splits the statuses it accepts into two disjoint parts |
| `HeaderAssert.Header` | assert/header.go:11-19 | passes iff the pattern compiles and matches somewhere in the looked-up value; the failure carries the pattern and the value |
| `HeaderAssert.HeaderEquals` | assert/header.go:23-30 | passes iff the looked-up value equals the expected value exactly |
| `HeaderAssert.HeaderPresent` | assert/header.go:33-40 | fails iff the looked-up value is empty, naming the key |
| `HeaderAssert.AbsentHeader` | assert/header.go:13-14 | an absent key reads as "": `Header` passes iff the pattern matches "", `HeaderEquals` iff the expected value is "", and `HeaderPresent` fails |
| `HeaderAssert.EmptyValueIsAbsent` | assert/header.go:35 | a key whose first value is explicitly empty fails `HeaderPresent` |
| `HeaderAssert.UncompilablePatternFails` | assert/header.go:14 | a pattern that does not compile makes `Header` fail |
| `HeaderAssert.ChecksIgnoreKeyCase` | assert/header.go:11-40 | all three header checks give the same verdict for two case-spellings of a token key |
| `HeaderAssert.LowerCaseKeyFindsServer` | assert/header.go:25 | an example of `ChecksIgnoreKeyCase`: "server" finds the value stored under "Server" |
| `BodyAssert.BodyMatchString` | assert/body.go:24-35 | a read error is returned unchanged; otherwise the check passes iff the pattern compiles and matches somewhere in the body text |
| `BodyAssert.DeclaredLength` | assert/body.go:40-42 | a length is declared exactly when Content-Length parses as an integer other than 0 |
| `BodyAssert.BodyLength` | assert/body.go:38-55 | with a declared length, passes iff it equals the expected length; otherwise a read error is returned, or the byte count must equal the expected length |
| `BodyAssert.DeclaredLengthIgnoresBody` | assert/body.go:40-42 | with a usable Content-Length the body is never read: any body gives the same verdict |
| `BodyAssert.MissingLengthCountsBytes` | assert/body.go:42-48 | a missing or empty Content-Length entry, or a first value that is "0" or unparsable, makes the body's byte count decide, whatever other headers the response has |
| `BodyAssert.BodyChecksRepeatable` | assert/body.go:12-20 | body checks leave the response unchanged, so a repeated check gets the same verdict |
| `BodyAssert.UncompilableBodyPatternFails` | assert/body.go:30 | an uncompilable pattern makes `BodyMatchString` fail on a readable body |
| `TypeAssert.ResolveType` | assert/type.go:16-19 | an alias resolves to its table pattern; any other kind is used verbatim |
| `TypeAssert.Type` | assert/type.go:14-27 | passes iff the resolved pattern matches somewhere in Content-Type; the failure reports the kind as written, with the header value |
| `TypeAssert.TypeResolution` | assert/type.go:16-22 | the verdict uses the alias pattern for an alias and the kind itself otherwise |
| `TypeAssert.AbsentContentType` | assert/type.go:21 | with no Content-Type header the pattern is matched against "" |
| `TypeAssert.UncompilableTypeFails` | assert/type.go:22-23 | an uncompilable pattern is a mismatch, reported with the kind |
| `JsonReader.ReadMarshal` | assert/json.go:36-38 | the canonical reader parses the canonical text of every value back to that value |
| `JsonReader.MarshalInjective` | assert/json.go:95-96 | two values with the same canonical text are equal |
| `JsonAssert.Unmarshal` | assert/json.go:16-22 | succeeds iff the text decodes to an object or null, and then holds the decoded value with every number by value; a decoder error comes back as an unmarshal failure carrying it |
| `JsonAssert.UnmarshalBody` | assert/json.go:24-34 | leaves the response unchanged; a read error is returned; an empty body is the nil map without error; anything else is decoded |
| `JsonAssert.Coerce` | assert/json.go:55-83 | each kind of expected value is decoded from its own text: a string from itself, a readable reader and a byte slice from their bytes, a generic map from its canonical text; a reader's read error is returned; any other type stays the nil map; every success is an object or the nil map |
| `JsonAssert.Compare` | assert/json.go:51-101 | a coercion error is returned; otherwise passes iff the body value equals the expected value, and a mismatch carries both canonical texts, body first |
| `JsonAssert.JSON` | assert/json.go:105-115 | a body decode error is returned before any comparison; otherwise the comparison decides |
| `JsonAssert.VerifyJSON` | assert/json.go:119-129 | a body decode error is returned before the callback runs; otherwise the callback's error is returned unchanged |
| `JsonAssert.ExpectedTextOnlyByValue` | assert/json.go:55-83 | two expected texts that decode alike give the same verdict; bytes and the equal string give the same verdict |
| `JsonAssert.MapExpectation` | assert/json.go:68-74 | a conditional fact: if the decoder reads a map's canonical text back as that map, the map expectation passes iff the body decodes to that object, numbers by value |
| `JsonAssert.NumbersCompareByValue` | assert/json.go:86-96 | a body member and an expected member that are numbers match iff they have the same value, however each is written (1, 1.0, 10e-1); Go's -0 against 0 is the exception, see `Json.Normalize` under "## Left out" |
| `JsonAssert.OtherMatchesOnlyNull` | assert/json.go:77-96 | an expectation of another type passes iff the body is empty or decodes to null |
| `JsonAssert.ExpectedDecodeFailure` | assert/json.go:79-82 | an expected side that fails to decode yields the unmarshal error, never a mismatch |
| `JsonAssert.NonObjectExpectedFails` | assert/json.go:16-21 | an expected text that decodes to a non-object, non-null value always fails with the "cannot unmarshal" error |
| `Failures.Message` | assert/json.go:19 | a passed-through error keeps its text; an unmarshal failure starts "failed to Unmarshal: "; a schema report starts with the fixed header line |
| `SchemaAssert.SchemaLoader` | assert/json_schema.go:12-23 | first match wins: "http…" loads the fixed reference; '{' after trimming spaces is inline, untrimmed; a relative path becomes "file://"+path; an absolute path is used as is |
| `SchemaAssert.ReferencesAreFilesOrPaths` | assert/json_schema.go:12-23 | every reference the routing builds is a file URI or an absolute path |
| `SchemaAssert.SpacedInlineSchema` | assert/json_schema.go:16-17 | leading spaces before '{' still route inline, with the spaces kept |
| `SchemaAssert.JSONSchema` | assert/json_schema.go:27-52 | a read error and a validator error are returned unchanged; a valid document passes; an invalid one yields one report of its violations |
| `SchemaAssert.ValidatorErrorIsNotViolation` | assert/json_schema.go:37-40 | a validator error is never reported as a list of violations |
| `SchemaAssert.ViolationsVerbatim` | assert/json_schema.go:43-46 | each violation is one "\t- detail\n" line, verbatim and in validator order, after the header |
| `SchemaAssert.AggregateViolations` | assert/json_schema.go:43-47 | the loop that appends one line per violation builds exactly the report text |
| `SchemaAssert.ErrorfText` | assert/json_schema.go:47 | `fmt.Errorf` with no arguments keeps a format without '%' unchanged |
| `SchemaAssert.MissingVerbChangesText` | assert/json_schema.go:47 | after text without '%', a "%d" with no argument changes the output |
| `SchemaAssert.PercentInViolationGarbled` | assert/json_schema.go:47 | a violation containing "%d" comes out of `fmt.Errorf(msg)` different from the report text |
| `Assertions.Eval` | assert/assert.go:8 | each builtin variant returns exactly the verdict of its check in `assert/` and leaves the response unchanged; a custom assertion's response and error text pass through; status and header-equality variants pass on the documented conditions |
| `Assertions.StatusOk` | assert/status.go:10-12 | passes iff 200 <= status < 400 |
| `Assertions.StatusError` | assert/status.go:16-18 | passes iff 400 <= status < 600 |
| `Assertions.StatusServerError` | assert/status.go:22-24 | passes iff 500 <= status < 600 |
| `Assertions.StatusClientError` | assert/status.go:28-30 | passes iff 400 <= status < 500 |
| `Assertions.StatusRedirect` | assert/status.go:34-36 | passes iff the status is 301 or 302 |
| `Assertions.StatusSamples` | assert/status_test.go:20-33 | StatusOk accepts 200 and 300 and rejects 400; StatusError accepts 400, 405, 500, 502 and rejects 0 and 200; StatusRedirect rejects 300 and 303-308 |
| `Assertions.ErrorPartition` | assert/status.go:16-30 | a status passes StatusError iff it passes exactly one of StatusClientError and StatusServerError |
| `Assertions.StatusOnlyReadsStatus` | assert/status.go:39-58 | status checks depend on the status code only, not on the request, headers or body |
| `Expectations.NewExpect` | expect.go:20-22 | a new suite has no test bound and no assertions |
| `Expectations.BindTest` | expect.go:27-30 | binding a test keeps the assertions |
| `Expectations.AssertFunc` | expect.go:133-136 | appends its arguments in order and keeps the earlier ones in place |
| `Expectations.Status` | expect.go:34-37 | appends one assertion, passing iff the status equals the code |
| `Expectations.StatusOk` | expect.go:41-44 | appends one assertion, passing iff 200 <= status < 400 |
| `Expectations.StatusError` | expect.go:48-51 | appends one assertion, passing iff 400 <= status < 600 |
| `Expectations.StatusServerError` | expect.go:55-58 | appends one assertion, passing iff 500 <= status < 600 |
| `Expectations.StatusClientError` | expect.go:62-65 | appends one assertion, passing iff 400 <= status < 500 |
| `Expectations.Type` | expect.go:68-71 | appends one assertion that evaluates exactly to the content-type check; it passes iff the alias-resolved pattern matches Content-Type |
| `Expectations.Header` | expect.go:75-78 | appends one assertion that evaluates exactly to the header pattern check; it passes iff the value, read as a pattern, matches the header |
| `Expectations.HeaderEquals` | expect.go:81-84 | appends one assertion, passing iff the header equals the value |
| `Expectations.HeaderPresent` | expect.go:87-90 | appends one assertion, passing iff the header is non-empty |
| `Expectations.BodyEquals` | expect.go:94-97 | appends one assertion, the same as `BodyMatchString`: a regex search, not equality |
| `Expectations.BodyMatchString` | expect.go:101-104 | appends one assertion that evaluates exactly to the body pattern check; it passes iff the pattern matches the readable body, and an unreadable body fails |
| `Expectations.BodyLength` | expect.go:107-110 | appends one assertion that evaluates exactly to the body-length check: the declared length when Content-Length is usable, a read error otherwise, or the byte count; with no Content-Length and a readable body it passes iff the body has the expected byte count |
| `Expectations.JSONEquals` | expect.go:113-116 | appends one assertion that runs the JSON comparison against the data |
| `Expectations.JSONSchema` | expect.go:120-123 | appends one assertion that evaluates exactly to the schema check, read and validator errors included; on a readable body it passes iff the validator finds it valid against the routed schema |
| `Expectations.JSONSchemaFile` | expect.go:127-130 | appends nothing |
| `Expectations.Run` | expect.go:158-167 | never evaluates more assertions than it has; passing evaluates them all; a failure stops after at least one; an empty list passes with the response untouched |
| `Expectations.RunLoop` | expect.go:158-167 | the for-loop that breaks at the first error computes `Run`: the same error, count and response |
| `Expectations.RunAppend` | expect.go:160-165 | running a concatenation runs the second part only if the first passes, on the response the first part left |
| `Expectations.LaterAssertionsIgnored` | expect.go:162-164 | once a list fails, appending assertions changes nothing |
| `Expectations.RunPassesIffAllPass` | expect.go:158-166 | with builtin checks, run passes iff every assertion passes, and the response comes back unchanged |
| `Expectations.RunStopsAtFirstFailure` | expect.go:160-164 | with builtin checks, run returns the first failing assertion's error after evaluating exactly up to it |
| `Expectations.DoneMessage` | expect.go:144 | a transport error reads "request error: " followed by its cause; an assertion error keeps its text |
| `Expectations.Done` | expect.go:140-156 | a send error is returned and reported once; otherwise the run's error, if any, is returned and reported once, and a pass reports nothing |
| `Expectations.SendErrorSkipsAssertions` | expect.go:142-146 | on a send error the assertions play no part |
| `Expectations.EmptyExpectationPasses` | expect.go:158-166 | a suite with no assertions passes any response without reporting |
| `Expectations.DonePassesIffAllPass` | expect.go:150-155 | with builtin checks, Done succeeds on a sent request iff every assertion passes |
| `Requests.NewRequest` | request.go:33-37 | a new request is untested and has no client |
| `Requests.SetClient` | request.go:41-45 | attaching a client leaves the tested flag alone |
| `Requests.Clone` | request.go:260-262 | a clone is untested and has no client, whatever the original's state |
| `Requests.Expect` | request.go:215-223 | an untested request is marked tested and returns a new suite bound to the test; a tested one reports "[baloo] request already tested", returns nil and is unchanged |
| `Requests.Assert` | request.go:225-227 | behaves exactly as `Expect` |
| `Requests.AtMostOneSuite` | request.go:215-223 | over any number of calls a request hands out at most one suite, and every other call reports it as already tested |
| `Requests.TestedStaysSet` | request.go:216-220 | once tested, further calls change nothing and hand out nothing |
| `Requests.CloneTestsAgain` | request.go:260-262 | a clone can be tested even after its original was; the original cannot be tested twice |
| `Log.ReplaceFirst` | log.go:118 | with no occurrence the text is unchanged; otherwise exactly the first occurrence is replaced |
| `Log.Tabify` | log.go:116-121 | a format not starting with a newline is unchanged; otherwise two tabs follow the first newline, the rest is untouched, and the length grows by 2 |
| `Log.UntabifyInverse` | log.go:117-118 | dropping the two inserted tabs gives back the format |
| `Log.TruncateFileName` | log.go:57-62 | the result is a suffix of the name, cut right after the last '/', or failing that after the last '\\', or the whole name |
| `Log.BaseName` | log.go:58-59 | a directory, '/' and a separator-free name truncate to the name |
| `Log.Location` | log.go:56-66 | when the caller lookup fails the location is "???" at line 1; otherwise the line is kept and the file is truncated to its base name, a suffix of the path |

## Left out

- Go's `regexp` (RE2) is not modelled: the engine is a parameter. Only the wiring around it is proved: errors are discarded and the search is unanchored.
- The gojsonschema validator and schema loading from files or URLs are not modelled: the validator is a parameter that returns an error, valid, or the list of violation texts.
- The alias table `bodytype.Types` lives in gentleman and is a parameter.
- The `encoding/json` text decoder is a parameter. Numbers are exact decimals `mantissa * 10^exponent`, compared by value after decoding (`Json.Normalize`). float64 rounding is not modelled: two different decimals that round to the same float64 compare equal in Go and unequal here. Go's float formatting is not modelled either: a mismatch message writes 10 as "1e1" where Go writes "10".
- `Json.Marshal` escapes ASCII as `encoding/json` does; invalid UTF-8 and U+2028/U+2029 handling are left out. `Text.GoQuote` quotes bytes as `strconv.Quote` does for ASCII and passes other bytes through.
- The body of a response is either fully readable or fails on its first read. A body that fails part-way is not modelled.
- Only the builtin checks are proved to leave the response unchanged. A custom assertion (`Assertions.Custom`) may change it, as its pointer argument allows in the source. User functions are named by an index into the environment's tables.
- The assertions read the request argument only through custom assertions. Its contents (`RequestView`) are otherwise unused, as in the source.
- Sending the request (`Request.Send`) is network I/O. `Expectations.Done` takes the send outcome as a parameter.
- The test object is reduced to the list of reported errors. `Done` on a suite never bound to a test dereferences a nil test in the source whenever it reports; the model reports as if a test were bound.
- `Requests.Expect` returns a suite that does not point back to its request: the suite's link to the request only serves `Send`, which is a parameter here.
- `client.go`, the request builder methods of `request.go` and the middleware are thin wrappers over gentleman and are not part of this model. A client is known by an identity only.
- `log.go`: the `runtime.Caller` stack walk, `t.Logf`, `Logf`, `logerror`, `logfatal` and `Dump` are test-harness output and are left out. Only `tabify`, the file-name truncation and the "???" fallback are modelled.
- `Failures.Message`: for a schema report it returns the report verbatim. `assert/json_schema.go:47` returns `fmt.Errorf(msg)`, which is `SchemaAssert.ErrorfText` of the report and differs from it whenever a violation holds '%'. The model uses the intended text; the as-written text is modelled and compared under "## Findings".
- `Json.Normalize`: -0 decodes to the float64 negative zero, which Go writes back as "-0" and so compares unequal to 0; the model's numbers have no signed zero and compare them equal.
- `JsonAssert.Coerce`: a generic map expectation holds JSON values only. A Go map that holds a value `json.Marshal` rejects (a func, a channel, NaN) makes `assert/json.go:70-73` return the marshal error, which is neither a mismatch nor an unmarshal failure; that path is not modelled.
- `JsonAssert.Coerce`: an `io.Reader` expectation is modelled as an immutable stream. In Go, `ioutil.ReadAll` at `assert/json.go:62` uses the reader up on the first evaluation, so a second run of the same assertion reads "" and fails to decode. The model gives the same verdict on every evaluation; it promises nothing about reusing a reader expectation.
- `SchemaAssert.ErrorfText` renders only format strings whose every '%' is "%%", a letter verb, or the last character. Flags, widths and other verbs of `fmt` are not modelled.
- `expect.go:114` calls `assert.JSONEquals`, which `assert/json.go` does not define; the assertion it defines is `JSON`. `Expectations.JSONEquals` is modelled with `JSON`.
- The tests of `assert/json_test.go` cover arrays, named map types, `MarshalJSON` values and `OnJSON`. The `compare` shown accepts only strings, readers, generic maps and byte slices, and only objects. The model follows the code.
- `HeaderNotEquals`, `HeaderNotPresent`, `RedirectTo` and the global assertion registry appear only in tests and examples and are not modelled.

## Findings

| source | as written | input that shows it | evidently intended | confidence | as-written member | corrected member |
|---|---|---|---|---|---|---|
| assert/json_schema.go:47 | the violation report is passed to `fmt.Errorf` as its format string | a schema violation whose text holds a verb, e.g. "id: Does not match pattern '%d'", comes out as "…pattern '%!d(MISSING)'" | the report returned verbatim, as with `errors.New(msg)` or `fmt.Errorf("%s", msg)` | high, not executed | `SchemaAssert.PercentInViolationGarbled` | `SchemaAssert.AggregateViolations` |

=== FILE: assertion.dfy ===
/** An assertion (`assert.Func`, a function of the response and the request
    that returns an error or nil) as a variant per builtin check, plus the
    user-supplied kind. The collaborators a builtin needs (regex engine,
    content-type alias table, JSON decoder, schema validator) come in an
    environment, and so do the functions a user hands in (JSON verifiers and
    custom assertions), which an assertion names by their index there. */
module Assertions {
  import opened Wrappers
  import opened Failures
  import opened Http
  import opened Regex
  import Json
  import StatusAssert
  import HeaderAssert
  import BodyAssert
  import TypeAssert
  import JsonAssert
  import SchemaAssert

  /** A user assertion: it sees the response and the request, may leave the
      response changed for the checks after it (it holds a pointer in the
      source), and returns an error text or nothing. */
  type Callback = (Response, RequestView) -> (Option<string>, Response)

  /** The collaborators of the builtin checks and the user's functions. */
  datatype Env = Env(
    re: Engine,
    aliases: map<string, string>,
    decode: JsonAssert.Decoder,
    validate: SchemaAssert.Validator,
    verifiers: nat -> (Json.Json -> Option<string>),
    callbacks: nat -> Callback)

  datatype Assertion =
    | StatusEqual(code: int)
    | StatusRange(start: int, end: int)
    | HeaderMatch(key: string, pattern: string)
    | HeaderEquals(key: string, value: string)
    | HeaderPresent(key: string)
    | BodyMatchString(pattern: string)
    | BodyLength(length: int)
    | Type(kind: string)
    | JSON(expected: JsonAssert.Expected)
    | VerifyJSON(verifier: nat)
    | JSONSchema(schema: string)
    | Custom(callback: nat)

  /** Whether an assertion only looks at the response: every builtin does, a
      custom one may not. */
  predicate IsBuiltin(a: Assertion) {
    !a.Custom?
  }

  /** Running one assertion: its error, if any, and the response the next
      assertion sees. Builtins put back what they read; a custom assertion's
      error text is passed through unchanged. */
  function Eval(env: Env, a: Assertion, res: Response, req: RequestView): (r: (Option<Failure>, Response))
    ensures IsBuiltin(a) ==> r.1 == res
    ensures a.Custom? ==> r.1 == env.callbacks(a.callback)(res, req).1
    ensures a.Custom? ==> var msg := env.callbacks(a.callback)(res, req).0;
      && (r.0.None? <==> msg.None?)
      && (r.0.Some? ==> r.0.value == Raised(msg.value))
    ensures a.StatusEqual? ==> (r.0.None? <==> res.status == a.code)
    ensures a.StatusRange? ==> (r.0.None? <==> a.start <= res.status <= a.end)
    ensures a.HeaderEquals? ==> (r.0.None? <==> Get(res.header, a.key) == a.value)
    ensures a.HeaderPresent? ==> (r.0.None? <==> Get(res.header, a.key) != "")
    ensures a.StatusEqual? ==> r.0 == StatusAssert.StatusEqual(a.code, res)
    ensures a.StatusRange? ==> r.0 == StatusAssert.StatusRange(a.start, a.end, res)
    ensures a.HeaderMatch? ==> r.0 == HeaderAssert.Header(env.re, a.key, a.pattern, res)
    ensures a.HeaderEquals? ==> r.0 == HeaderAssert.HeaderEquals(a.key, a.value, res)
    ensures a.HeaderPresent? ==> r.0 == HeaderAssert.HeaderPresent(a.key, res)
    ensures a.BodyMatchString? ==> r.0 == BodyAssert.BodyMatchString(env.re, a.pattern, res)
    ensures a.BodyLength? ==> r.0 == BodyAssert.BodyLength(a.length, res)
    ensures a.Type? ==> r.0 == TypeAssert.Type(env.re, env.aliases, a.kind, res)
    ensures a.JSON? ==> r.0 == JsonAssert.JSON(env.decode, a.expected, res)
    ensures a.VerifyJSON? ==> r.0 == JsonAssert.VerifyJSON(env.decode, env.verifiers(a.verifier), res)
    ensures a.JSONSchema? ==> r.0 == SchemaAssert.JSONSchema(env.validate, a.schema, res)
  {
    match a
    case StatusEqual(code) => (StatusAssert.StatusEqual(code, res), res)
    case StatusRange(start, end) => (StatusAssert.StatusRange(start, end, res), res)
    case HeaderMatch(key, pattern) => (HeaderAssert.Header(env.re, key, pattern, res), res)
    case HeaderEquals(key, value) => (HeaderAssert.HeaderEquals(key, value, res), res)
    case HeaderPresent(key) => (HeaderAssert.HeaderPresent(key, res), res)
    case BodyMatchString(pattern) => (BodyAssert.BodyMatchString(env.re, pattern, res), res)
    case BodyLength(length) => (BodyAssert.BodyLength(length, res), res)
    case Type(kind) => (TypeAssert.Type(env.re, env.aliases, kind, res), res)
    case JSON(expected) => (JsonAssert.JSON(env.decode, expected, res), res)
    case VerifyJSON(verifier) => (JsonAssert.VerifyJSON(env.decode, env.verifiers(verifier), res), res)
    case JSONSchema(schema) => (SchemaAssert.JSONSchema(env.validate, schema, res), res)
    case Custom(callback) =>
      var (msg, after) := env.callbacks(callback)(res, req);
      (if msg.None? then None else Some(Raised(msg.value)), after)
  }

  /** Whether an assertion passes on a response. */
  predicate Passes(env: Env, a: Assertion, res: Response, req: RequestView) {
    Eval(env, a, res, req).0.None?
  }

  // ---------------------------------------------------------------------------
  // The named status ranges
  // ---------------------------------------------------------------------------

  /** `StatusOk`: a valid response, 200 up to but not including 400. */
  function StatusOk(): (a: Assertion)
    ensures IsBuiltin(a)
    ensures forall env, res, req :: Passes(env, a, res, req) <==> 200 <= res.status < 400
  {
    StatusRange(200, 399)
  }

  /** `StatusError`: a client or server error, 400 up to but not including 600. */
  function StatusError(): (a: Assertion)
    ensures IsBuiltin(a)
    ensures forall env, res, req :: Passes(env, a, res, req) <==> 400 <= res.status < 600
  {
    StatusRange(400, 599)
  }

  /** `StatusServerError`: 500 up to but not including 600. */
  function StatusServerError(): (a: Assertion)
    ensures IsBuiltin(a)
    ensures forall env, res, req :: Passes(env, a, res, req) <==> 500 <= res.status < 600
  {
    StatusRange(500, 599)
  }

  /** `StatusClientError`: 400 up to but not including 500. */
  function StatusClientError(): (a: Assertion)
    ensures IsBuiltin(a)
    ensures forall env, res, req :: Passes(env, a, res, req) <==> 400 <= res.status < 500
  {
    StatusRange(400, 499)
  }

  /** `StatusRedirect`: exactly 301 or 302. */
  function StatusRedirect(): (a: Assertion)
    ensures IsBuiltin(a)
    ensures forall env, res, req :: Passes(env, a, res, req) <==> res.status == 301 || res.status == 302
  {
    StatusRange(301, 302)
  }

  /** The sample statuses the status helpers are documented with. */
  lemma StatusSamples(env: Env, res: Response, req: RequestView)
    ensures res.status == 200 || res.status == 300 ==> Passes(env, StatusOk(), res, req)
    ensures res.status == 400 ==> !Passes(env, StatusOk(), res, req)
    ensures res.status in {400, 405, 500, 502} ==> Passes(env, StatusError(), res, req)
    ensures res.status == 0 || res.status == 200 ==> !Passes(env, StatusError(), res, req)
    ensures res.status == 300 || 303 <= res.status <= 308 ==> !Passes(env, StatusRedirect(), res, req)
  {
  }

  /** Client and server errors partition the error statuses: a status passes
      `StatusError` exactly when it passes one of the two, and it never
      passes both. */
  lemma ErrorPartition(env: Env, res: Response, req: RequestView)
    ensures Passes(env, StatusError(), res, req)
      <==> Passes(env, StatusClientError(), res, req) || Passes(env, StatusServerError(), res, req)
    ensures !(Passes(env, StatusClientError(), res, req) && Passes(env, StatusServerError(), res, req))
  {
    StatusAssert.RangeSplit(400, 500, 599, res);
  }

  /** Status checks read nothing but the status code: not the request, the
      headers or the body. */
  lemma StatusOnlyReadsStatus(env: Env, a: Assertion, res: Response, req: RequestView,
                              res': Response, req': RequestView)
    requires a.StatusEqual? || a.StatusRange?
    requires res'.status == res.status
    ensures Eval(env, a, res, req).0 == Eval(env, a, res', req').0
  {
  }
}

=== FILE: body.dfy ===
/** Body assertions (`assert/body.go`). Both read the body through
    `ReadBody`, which hands the same bytes to whoever reads next; a read
    error is returned unchanged before anything is compared. */
module BodyAssert {
  import opened Wrappers
  import opened Text
  import opened Failures
  import opened Http
  import opened Regex

  /** `BodyMatchString(pattern)`: the pattern must match somewhere in the
      body read as text. */
  function BodyMatchString(re: Engine, pattern: string, res: Response): (r: Option<Failure>)
    ensures res.body.Failing? ==> r == Some(Raised(res.body.cause))
    ensures res.body.Buffered? ==>
      (r.None? <==> re.compiles(pattern) && re.search(pattern, ToText(res.body.data)))
    ensures res.body.Buffered? && r.Some? ==> r.value == BodyMismatch(pattern)
  {
    match ReadBody(res).0
    case Failure(cause) => Some(Raised(cause))
    case Success(data) =>
      if !MatchString(re, pattern, ToText(data)) then Some(BodyMismatch(pattern)) else None
  }

  /** The length the Content-Length header declares, when it parses as an
      integer and is not zero. */
  function DeclaredLength(res: Response): (n: Option<int>)
    ensures n.Some? ==> n.value != 0 && Atoi(Get(res.header, "Content-Length")) == Some(n.value)
    ensures n.None? ==> Atoi(Get(res.header, "Content-Length")) in {None, Some(0)}
  {
    match Atoi(Get(res.header, "Content-Length"))
    case None => None
    case Some(cl) => if cl == 0 then None else Some(cl)
  }

  /** `BodyLength(length)`: the length taken from Content-Length, or else
      the number of body bytes, must equal `length`. */
  function BodyLength(length: int, res: Response): (r: Option<Failure>)
    ensures DeclaredLength(res).Some? ==>
      var cl := DeclaredLength(res).value;
      && (r.None? <==> cl == length)
      && (r.Some? ==> r.value == BodyLengthMismatch(cl, length))
    ensures DeclaredLength(res).None? && res.body.Failing? ==> r == Some(Raised(res.body.cause))
    ensures DeclaredLength(res).None? && res.body.Buffered? ==>
      var size := |res.body.data|;
      && (r.None? <==> size == length)
      && (r.Some? ==> r.value == BodyLengthMismatch(size, length))
  {
    var parsed := Atoi(Get(res.header, "Content-Length"));
    if parsed.None? || parsed.value == 0 then
      match ReadBody(res).0
      case Failure(cause) => Some(Raised(cause))
      case Success(data) =>
        if |data| != length then Some(BodyLengthMismatch(|data|, length)) else None
    else if parsed.value != length then Some(BodyLengthMismatch(parsed.value, length))
    else None
  }

  /** A usable Content-Length settles `BodyLength` without reading the body:
      two responses that differ only in their bodies get the same verdict,
      even when one body cannot be read. */
  lemma DeclaredLengthIgnoresBody(length: int, res: Response, body: Body)
    requires DeclaredLength(res).Some?
    ensures BodyLength(length, res) == BodyLength(length, res.(body := body))
  {
  }

  /** With no Content-Length, "Content-Length: 0" or an unparsable value, a
      readable body is measured by its bytes. */
  lemma MissingLengthCountsBytes(length: int, res: Response, cl: string)
    requires res.body.Buffered?
    requires Atoi(cl) in {None, Some(0)}
    requires || ("Content-Length" in res.header && |res.header["Content-Length"]| > 0
                 && res.header["Content-Length"][0] == cl)
             || ("Content-Length" in res.header && |res.header["Content-Length"]| == 0)
             || "Content-Length" !in res.header
    ensures BodyLength(length, res).None? <==> |res.body.data| == length
  {
    ContentLengthCanonical();
  }

  /** Body checks leave the response as they found it, so every later check
      reads the same bytes. */
  lemma BodyChecksRepeatable(re: Engine, pattern: string, res: Response)
    ensures ReadBody(res).1 == res
    ensures BodyMatchString(re, pattern, ReadBody(res).1) == BodyMatchString(re, pattern, res)
  {
  }

  /** A pattern that does not compile never matches a readable body. */
  lemma UncompilableBodyPatternFails(re: Engine, pattern: string, res: Response)
    requires !re.compiles(pattern) && res.body.Buffered?
    ensures BodyMatchString(re, pattern, res) == Some(BodyMismatch(pattern))
  {
  }
}

=== FILE: expect.dfy ===
/** The expectation suite (`expect.go`): an append-only list of assertions,
    run in order against one response until the first failure. Sending the
    request is not modelled; `Done` receives its outcome. */
module Expectations {
  import opened Wrappers
  import opened Text
  import opened Failures
  import opened Http
  import opened Regex
  import JsonAssert
  import BodyAssert
  import HeaderAssert
  import TypeAssert
  import SchemaAssert
  import A = Assertions

  /** An expectation: whether a test is bound to it, and its assertions in
      the order they were added. */
  datatype Expect = Expect(bound: bool, assertions: seq<A.Assertion>)

  /** `r` is `e` with `n` more assertions after the ones it had. */
  predicate Extends(e: Expect, r: Expect, n: nat) {
    && r.bound == e.bound
    && |r.assertions| == |e.assertions| + n
    && r.assertions[..|e.assertions|] == e.assertions
  }

  /** The most recently added assertion. */
  function Last(e: Expect): A.Assertion
    requires |e.assertions| > 0
  {
    e.assertions[|e.assertions| - 1]
  }

  /** `NewExpect`: no test bound yet and no assertions. */
  function NewExpect(): (e: Expect)
    ensures !e.bound && |e.assertions| == 0
  {
    Expect(false, [])
  }

  /** `BindTest`: binds a test and keeps the assertions. */
  function BindTest(e: Expect): (r: Expect)
    ensures r.bound && r.assertions == e.assertions
  {
    e.(bound := true)
  }

  /** `AssertFunc(assertions...)`: appends its arguments in the order given,
      leaving the earlier ones in place. */
  function AssertFunc(e: Expect, more: seq<A.Assertion>): (r: Expect)
    ensures Extends(e, r, |more|)
    ensures forall i :: 0 <= i < |more| ==> r.assertions[|e.assertions| + i] == more[i]
  {
    e.(assertions := e.assertions + more)
  }

  // ---------------------------------------------------------------------------
  // Builders: each appends exactly one assertion
  // ---------------------------------------------------------------------------

  function Status(e: Expect, code: int): (r: Expect)
    ensures Extends(e, r, 1)
    ensures forall env: A.Env, res: Response, req: RequestView :: A.Passes(env, Last(r), res, req) <==> res.status == code
  {
    AssertFunc(e, [A.StatusEqual(code)])
  }

  function StatusOk(e: Expect): (r: Expect)
    ensures Extends(e, r, 1)
    ensures forall env: A.Env, res: Response, req: RequestView :: A.Passes(env, Last(r), res, req) <==> 200 <= res.status < 400
  {
    AssertFunc(e, [A.StatusOk()])
  }

  function StatusError(e: Expect): (r: Expect)
    ensures Extends(e, r, 1)
    ensures forall env: A.Env, res: Response, req: RequestView :: A.Passes(env, Last(r), res, req) <==> 400 <= res.status < 600
  {
    AssertFunc(e, [A.StatusError()])
  }

  function StatusServerError(e: Expect): (r: Expect)
    ensures Extends(e, r, 1)
    ensures forall env: A.Env, res: Response, req: RequestView :: A.Passes(env, Last(r), res, req) <==> 500 <= res.status < 600
  {
    AssertFunc(e, [A.StatusServerError()])
  }

  function StatusClientError(e: Expect): (r: Expect)
    ensures Extends(e, r, 1)
    ensures forall env: A.Env, res: Response, req: RequestView :: A.Passes(env, Last(r), res, req) <==> 400 <= res.status < 500
  {
    AssertFunc(e, [A.StatusClientError()])
  }

  function Type(e: Expect, kind: string): (r: Expect)
    ensures Extends(e, r, 1)
    ensures forall env: A.Env, res: Response, req: RequestView ::
      (A.Passes(env, Last(r), res, req) <==>
         MatchString(env.re, if kind in env.aliases then env.aliases[kind] else kind,
                     Get(res.header, "Content-Type")))
    ensures forall env: A.Env, res: Response, req: RequestView ::
      A.Eval(env, Last(r), res, req).0 == TypeAssert.Type(env.re, env.aliases, kind, res)
  {
    AssertFunc(e, [A.Type(kind)])
  }

  /** `Header(key, value)`: `value` is a pattern searched for in the header. */
  function Header(e: Expect, key: string, value: string): (r: Expect)
    ensures Extends(e, r, 1)
    ensures forall env: A.Env, res: Response, req: RequestView ::
      (A.Passes(env, Last(r), res, req) <==> MatchString(env.re, value, Get(res.header, key)))
    ensures forall env: A.Env, res: Response, req: RequestView ::
      A.Eval(env, Last(r), res, req).0 == HeaderAssert.Header(env.re, key, value, res)
  {
    AssertFunc(e, [A.HeaderMatch(key, value)])
  }

  function HeaderEquals(e: Expect, key: string, value: string): (r: Expect)
    ensures Extends(e, r, 1)
    ensures forall env: A.Env, res: Response, req: RequestView :: A.Passes(env, Last(r), res, req) <==> Get(res.header, key) == value
  {
    AssertFunc(e, [A.HeaderEquals(key, value)])
  }

  function HeaderPresent(e: Expect, key: string): (r: Expect)
    ensures Extends(e, r, 1)
    ensures forall env: A.Env, res: Response, req: RequestView :: A.Passes(env, Last(r), res, req) <==> Get(res.header, key) != ""
  {
    AssertFunc(e, [A.HeaderPresent(key)])
  }

  /** `BodyEquals(pattern)` appends the same check as `BodyMatchString`: a
      regular-expression search in the body, not an equality test. */
  function BodyEquals(e: Expect, pattern: string): (r: Expect)
    ensures Extends(e, r, 1)
    ensures r == BodyMatchString(e, pattern)
  {
    AssertFunc(e, [A.BodyMatchString(pattern)])
  }

  function BodyMatchString(e: Expect, pattern: string): (r: Expect)
    ensures Extends(e, r, 1)
    ensures forall env: A.Env, res: Response, req: RequestView :: res.body.Buffered? ==>
      (A.Passes(env, Last(r), res, req) <==> MatchString(env.re, pattern, ToText(res.body.data)))
    ensures forall env: A.Env, res: Response, req: RequestView :: res.body.Failing? ==> !A.Passes(env, Last(r), res, req)
    ensures forall env: A.Env, res: Response, req: RequestView ::
      A.Eval(env, Last(r), res, req).0 == BodyAssert.BodyMatchString(env.re, pattern, res)
  {
    AssertFunc(e, [A.BodyMatchString(pattern)])
  }

  function BodyLength(e: Expect, length: int): (r: Expect)
    ensures Extends(e, r, 1)
    ensures forall env: A.Env, res: Response, req: RequestView :: res.body.Buffered? && Get(res.header, "Content-Length") == "" ==>
      (A.Passes(env, Last(r), res, req) <==> |res.body.data| == length)
    ensures forall env: A.Env, res: Response, req: RequestView ::
      A.Eval(env, Last(r), res, req).0 == BodyAssert.BodyLength(length, res)
  {
    AssertFunc(e, [A.BodyLength(length)])
  }

  /** `JSONEquals(data)`: the JSON comparison against `data`. */
  function JSONEquals(e: Expect, data: JsonAssert.Expected): (r: Expect)
    ensures Extends(e, r, 1)
    ensures forall env: A.Env, res: Response, req: RequestView :: A.Eval(env, Last(r), res, req).0 == JsonAssert.JSON(env.decode, data, res)
  {
    AssertFunc(e, [A.JSON(data)])
  }

  function JSONSchema(e: Expect, schema: string): (r: Expect)
    ensures Extends(e, r, 1)
    ensures forall env: A.Env, res: Response, req: RequestView :: res.body.Buffered? ==>
      (A.Passes(env, Last(r), res, req) <==>
         env.validate(SchemaAssert.SchemaLoader(schema), SchemaAssert.Inline(ToText(res.body.data))).Valid?)
    ensures forall env: A.Env, res: Response, req: RequestView ::
      A.Eval(env, Last(r), res, req).0 == SchemaAssert.JSONSchema(env.validate, schema, res)
  {
    AssertFunc(e, [A.JSONSchema(schema)])
  }

  /** `JSONSchemaFile` adds nothing: its body is commented out. */
  function JSONSchemaFile(e: Expect, schema: string): (r: Expect)
    ensures Extends(e, r, 0)
  {
    e
  }

  // ---------------------------------------------------------------------------
  // Running the assertions
  // ---------------------------------------------------------------------------

  /** What `run` ends with: the error it returns, how many assertions were
      evaluated, and the response as the last one left it. */
  datatype RunResult = RunResult(err: Option<Failure>, evaluated: nat, res: Response)

  /** `run`: evaluate the assertions in order, each on the response the one
      before left; stop at the first error and return it. */
  function Run(env: A.Env, assertions: seq<A.Assertion>, res: Response, req: RequestView): (r: RunResult)
    ensures r.evaluated <= |assertions|
    ensures r.err.None? ==> r.evaluated == |assertions|
    ensures r.err.Some? ==> r.evaluated > 0
    ensures |assertions| == 0 ==> r == RunResult(None, 0, res)
    decreases |assertions|
  {
    if |assertions| == 0 then RunResult(None, 0, res)
    else
      var (err, after) := A.Eval(env, assertions[0], res, req);
      if err.Some? then RunResult(err, 1, after)
      else
        var rest := Run(env, assertions[1..], after, req);
        RunResult(rest.err, rest.evaluated + 1, rest.res)
  }

  /** A run result seen from `n` assertions further back in the list. */
  function Shift(r: RunResult, n: nat): RunResult {
    r.(evaluated := r.evaluated + n)
  }

  /** Running a concatenation: the first part runs; only if it passes does
      the second part run, on the response the first part left. */
  lemma {:induction false} RunAppend(env: A.Env, xs: seq<A.Assertion>, ys: seq<A.Assertion>,
                                     res: Response, req: RequestView)
    ensures var first := Run(env, xs, res, req);
      Run(env, xs + ys, res, req)
        == if first.err.Some? then first else Shift(Run(env, ys, first.res, req), |xs|)
    decreases |xs|
  {
    if |xs| == 0 {
      assert xs + ys == ys;
    } else {
      assert (xs + ys)[0] == xs[0];
      assert (xs + ys)[1..] == xs[1..] + ys;
      var (err, after) := A.Eval(env, xs[0], res, req);
      if err.None? {
        RunAppend(env, xs[1..], ys, after, req);
      }
    }
  }

  /** Once an assertion has failed, whatever follows it is never evaluated:
      appending assertions to a failing list changes nothing. */
  lemma LaterAssertionsIgnored(env: A.Env, xs: seq<A.Assertion>, ys: seq<A.Assertion>,
                               res: Response, req: RequestView)
    requires Run(env, xs, res, req).err.Some?
    ensures Run(env, xs + ys, res, req) == Run(env, xs, res, req)
  {
    RunAppend(env, xs, ys, res, req);
  }

  predicate AllBuiltin(assertions: seq<A.Assertion>) {
    forall i :: 0 <= i < |assertions| ==> A.IsBuiltin(assertions[i])
  }

  /** With builtin assertions only, `run` passes exactly when every assertion
      passes on the response, and the response comes back unchanged. */
  lemma {:induction false} RunPassesIffAllPass(env: A.Env, assertions: seq<A.Assertion>,
                                               res: Response, req: RequestView)
    requires AllBuiltin(assertions)
    ensures Run(env, assertions, res, req).res == res
    ensures Run(env, assertions, res, req).err.None?
      <==> forall i :: 0 <= i < |assertions| ==> A.Passes(env, assertions[i], res, req)
    decreases |assertions|
  {
    if |assertions| > 0 {
      var rest := assertions[1..];
      assert forall i :: 0 <= i < |rest| ==> rest[i] == assertions[i + 1];
      RunPassesIffAllPass(env, rest, res, req);
      if A.Passes(env, assertions[0], res, req) {
        assert forall i :: 1 <= i < |assertions| ==> assertions[i] == rest[i - 1];
      }
    }
  }

  /** With builtin assertions only, the error `run` returns is that of the
      first failing assertion, after which nothing more is evaluated. */
  lemma {:induction false} RunStopsAtFirstFailure(env: A.Env, assertions: seq<A.Assertion>,
                                                  k: nat, res: Response, req: RequestView)
    requires AllBuiltin(assertions)
    requires k < |assertions| && !A.Passes(env, assertions[k], res, req)
    requires forall i :: 0 <= i < k ==> A.Passes(env, assertions[i], res, req)
    ensures Run(env, assertions, res, req)
      == RunResult(A.Eval(env, assertions[k], res, req).0, k + 1, res)
    decreases k
  {
    if k > 0 {
      var rest := assertions[1..];
      assert forall i :: 0 <= i < |rest| ==> rest[i] == assertions[i + 1];
      RunStopsAtFirstFailure(env, rest, k - 1, res, req);
    }
  }

  /** The loop `run` is written as: a `for` over the assertions that breaks
      at the first error. It computes `Run`. */
  method RunLoop(env: A.Env, assertions: seq<A.Assertion>, res: Response, req: RequestView)
    returns (err: Option<Failure>, evaluated: nat, current: Response)
    ensures RunResult(err, evaluated, current) == Run(env, assertions, res, req)
  {
    err, evaluated, current := None, 0, res;
    while evaluated < |assertions|
      invariant evaluated <= |assertions|
      invariant err.None?
      invariant Run(env, assertions, res, req)
        == Shift(Run(env, assertions[evaluated..], current, req), evaluated)
    {
      var i := evaluated;
      assert assertions[i..][0] == assertions[i];
      assert assertions[i..][1..] == assertions[i + 1..];
      var step := A.Eval(env, assertions[i], current, req);
      err, current := step.0, step.1;
      evaluated := i + 1;
      if err.Some? {
        return;
      }
    }
    assert assertions[evaluated..] == [];
  }

  // ---------------------------------------------------------------------------
  // Done
  // ---------------------------------------------------------------------------

  /** What sending the request produced: a transport error, or the response
      together with the request that was sent. */
  datatype SendOutcome = SendFailed(cause: string) | Sent(res: Response, req: RequestView)

  /** The error `Done` returns and reports to the bound test. */
  datatype DoneError = RequestError(cause: string) | AssertionFailed(failure: Failure)

  /** The text of a `Done` error: a transport error is wrapped as
      "request error: <cause>", an assertion error is its own text. */
  function DoneMessage(d: DoneError): (m: string)
    ensures d.RequestError? ==> HasPrefix(m, "request error: ") && m[15..] == d.cause
    ensures d.AssertionFailed? ==> m == Message(d.failure)
  {
    match d
    case RequestError(cause) =>
      assert ("request error: " + cause)[..15] == "request error: ";
      "request error: " + cause
    case AssertionFailed(f) => Message(f)
  }

  /** `Done`: the error it returns, and the errors it reports to the test in
      the order reported. A send error runs nothing and is reported once;
      otherwise only the error of `run`, if any, is reported, once. */
  function Done(env: A.Env, e: Expect, outcome: SendOutcome): (r: (Option<DoneError>, seq<DoneError>))
    ensures outcome.SendFailed? ==>
      r.0 == Some(RequestError(outcome.cause)) && r.1 == [RequestError(outcome.cause)]
    ensures outcome.Sent? ==>
      var run := Run(env, e.assertions, outcome.res, outcome.req);
      && (r.0.None? <==> run.err.None?)
      && (r.0.Some? ==> r.0.value == AssertionFailed(run.err.value))
    ensures r.0.None? ==> r.1 == []
    ensures r.0.Some? ==> r.1 == [r.0.value]
  {
    match outcome
    case SendFailed(cause) => (Some(RequestError(cause)), [RequestError(cause)])
    case Sent(res, req) =>
      match Run(env, e.assertions, res, req).err
      case None => (None, [])
      case Some(f) => (Some(AssertionFailed(f)), [AssertionFailed(f)])
  }

  /** A send error decides `Done` on its own: the assertions play no part. */
  lemma SendErrorSkipsAssertions(env: A.Env, e: Expect, e': Expect, cause: string)
    ensures Done(env, e, SendFailed(cause)) == Done(env, e', SendFailed(cause))
  {
  }

  /** An expectation with no assertions passes any response. */
  lemma EmptyExpectationPasses(env: A.Env, res: Response, req: RequestView)
    ensures Done(env, BindTest(NewExpect()), Sent(res, req)) == (None, [])
  {
  }

  /** With builtin assertions only, `Done` succeeds on a sent request exactly
      when every assertion passes on its response. */
  lemma DonePassesIffAllPass(env: A.Env, e: Expect, res: Response, req: RequestView)
    requires AllBuiltin(e.assertions)
    ensures Done(env, e, Sent(res, req)).0.None?
      <==> forall i :: 0 <= i < |e.assertions| ==> A.Passes(env, e.assertions[i], res, req)
  {
    RunPassesIffAllPass(env, e.assertions, res, req);
  }
}

=== FILE: failures.dfy ===
/** The errors an assertion returns. Each builtin check fails with its own
    kind of failure, which carries the values its message prints; an error
    produced by a collaborator (a body read, the schema validator, a user
    callback, the transport) is passed through unchanged as `Raised`. */
module Failures {
  import opened Text

  datatype Failure =
    | StatusMismatch(status: int, code: int)
    | StatusOutOfRange(status: int, start: int, end: int)
    | HeaderMismatch(pattern: string, value: string)
    | HeaderNotEqual(expected: string, value: string)
    | HeaderMissing(key: string)
    | BodyMismatch(pattern: string)
    | BodyLengthMismatch(actual: int, length: int)
    | ContentTypeMismatch(kind: string, value: string)
    | UnmarshalFailed(cause: string)
    | JsonMismatch(have: string, want: string)
    | SchemaInvalid(details: seq<string>)
    | Raised(msg: string)

  /** The first line of a schema report, "JSON document is not valid for the
      following reasons:" and a newline, kept in two halves so that proofs
      about its characters stay small. */
  const SchemaHeader: string := SchemaHeaderStart + SchemaHeaderEnd
  const SchemaHeaderStart: string := "JSON document is not "
  const SchemaHeaderEnd: string := "valid for the following reasons:\n"

  /** One line of the schema report: a tab, a dash and the violation. */
  function ViolationLine(detail: string): string {
    "\t- " + detail + "\n"
  }

  /** The violation lines of a schema report, in validator order. */
  function ViolationLines(details: seq<string>): (r: string)
    ensures |details| == 0 <==> |r| == 0
  {
    if |details| == 0 then ""
    else ViolationLines(details[..|details| - 1]) + ViolationLine(details[|details| - 1])
  }

  /** The text of a failure: the `fmt.Errorf` texts of the assertion
      library, with `%d` rendered by `Itoa` and `%#v` by `GoQuote`. A schema
      report is the exception: it is rendered verbatim, as intended, while
      `assert/json_schema.go:47` hands it to `fmt.Errorf` as a format, which
      garbles any '%' in a violation (`SchemaAssert.ErrorfText` renders that
      text). */
  function Message(f: Failure): (m: string)
    ensures f.Raised? ==> m == f.msg
    ensures f.UnmarshalFailed? ==> HasPrefix(m, "failed to Unmarshal: ")
    ensures f.SchemaInvalid? ==> HasPrefix(m, SchemaHeader)
  {
    match f
    case StatusMismatch(status, code) =>
      "Unexpected status code: " + Itoa(status) + " != " + Itoa(code)
    case StatusOutOfRange(status, start, end) =>
      "Status code outside the given range: "
        + Itoa(status) + " >= " + Itoa(start) + " && " + Itoa(status) + " <= " + Itoa(end)
    case HeaderMismatch(pattern, value) =>
      "Header mismatch: '" + pattern + "' should match '" + value + "'"
    case HeaderNotEqual(expected, value) =>
      "Header mismatch: '" + expected + "' == '" + value + "'"
    case HeaderMissing(key) =>
      "Header is not present: " + key
    case BodyMismatch(pattern) =>
      "Body mismatch: cannot match pattern '" + pattern + "'"
    case BodyLengthMismatch(actual, length) =>
      "Body length mismatch: '" + Itoa(actual) + "' should be equal '" + Itoa(length) + "'"
    case ContentTypeMismatch(kind, value) =>
      "Unexpected content type: '" + kind + "' should match '" + value + "'"
    case UnmarshalFailed(cause) =>
      assert ("failed to Unmarshal: " + cause)[..21] == "failed to Unmarshal: ";
      "failed to Unmarshal: " + cause
    case JsonMismatch(have, want) =>
      "failed due to JSON mismatch:\n\thave: " + GoQuote(have) + "\n\twant: " + GoQuote(want)
    case SchemaInvalid(details) =>
      assert (SchemaHeader + ViolationLines(details))[..|SchemaHeader|] == SchemaHeader;
      SchemaHeader + ViolationLines(details)
    case Raised(msg) => msg
  }

  /** The schema report: the fixed header line, then the violation lines. */
  lemma SchemaMessage(details: seq<string>)
    ensures Message(SchemaInvalid(details)) == SchemaHeader + ViolationLines(details)
  {
  }
}

=== FILE: header.dfy ===
/** Header assertions (`assert/header.go`). Each looks the key up with
    `Header.Get`, so the lookup ignores letter case and an absent key reads
    as the empty string. */
module HeaderAssert {
  import opened Wrappers
  import opened Failures
  import opened Http
  import opened Regex

  /** `Header(key, pattern)`: the pattern must match somewhere in the first
      value stored under `key`. */
  function Header(re: Engine, key: string, pattern: string, res: Response): (r: Option<Failure>)
    ensures r.None? <==> re.compiles(pattern) && re.search(pattern, Get(res.header, key))
    ensures r.Some? ==> r.value == HeaderMismatch(pattern, Get(res.header, key))
  {
    var value := Get(res.header, key);
    if !MatchString(re, pattern, value) then Some(HeaderMismatch(pattern, value)) else None
  }

  /** `HeaderEquals(key, value)`: the first value must be exactly `value`. */
  function HeaderEquals(key: string, value: string, res: Response): (r: Option<Failure>)
    ensures r.None? <==> Get(res.header, key) == value
    ensures r.Some? ==> r.value == HeaderNotEqual(value, Get(res.header, key))
  {
    var found := Get(res.header, key);
    if found != value then Some(HeaderNotEqual(value, found)) else None
  }

  /** `HeaderPresent(key)`: the first value must be non-empty. */
  function HeaderPresent(key: string, res: Response): (r: Option<Failure>)
    ensures r.None? <==> Get(res.header, key) != ""
    ensures r.Some? ==> r.value == HeaderMissing(key)
  {
    if Get(res.header, key) == "" then Some(HeaderMissing(key)) else None
  }

  /** An absent key is looked up as "": `Header` then passes exactly when the
      pattern matches the empty string, `HeaderEquals` exactly when the
      expected value is "", and `HeaderPresent` fails. */
  lemma AbsentHeader(re: Engine, key: string, pattern: string, value: string, res: Response)
    requires CanonicalKey(key) !in res.header
    ensures Header(re, key, pattern, res).None? <==> re.compiles(pattern) && re.search(pattern, "")
    ensures HeaderEquals(key, value, res).None? <==> value == ""
    ensures HeaderPresent(key, res) == Some(HeaderMissing(key))
  {
  }

  /** A key stored with an explicitly empty first value counts as absent. */
  lemma EmptyValueIsAbsent(key: string, rest: seq<string>, res: Response)
    requires CanonicalKey(key) in res.header
    requires res.header[CanonicalKey(key)] == [""] + rest
    ensures HeaderPresent(key, res) == Some(HeaderMissing(key))
  {
  }

  /** A pattern that does not compile never matches, so `Header` fails. */
  lemma UncompilablePatternFails(re: Engine, key: string, pattern: string, res: Response)
    requires !re.compiles(pattern)
    ensures Header(re, key, pattern, res).Some?
  {
  }

  /** Lookup ignores letter case: every header check gives the same verdict
      for two spellings of a token key. */
  lemma ChecksIgnoreKeyCase(re: Engine, a: string, b: string, pattern: string, value: string, res: Response)
    requires IsTokenKey(a) && SameIgnoringCase(a, b)
    ensures Header(re, a, pattern, res) == Header(re, b, pattern, res)
    ensures HeaderEquals(a, value, res) == HeaderEquals(b, value, res)
    ensures HeaderPresent(a, res).None? <==> HeaderPresent(b, res).None?
  {
    GetIgnoresCase(res.header, a, b);
  }

  /** "server" finds the value stored under "Server". */
  lemma LowerCaseKeyFindsServer(res: Response)
    requires res.header == map["Server" := ["nginx"]]
    ensures HeaderEquals("server", "nginx", res).None?
  {
    assert IsTokenKey("Server");
    assert CasedAsCanonical("Server", true);
    CanonicalFromFixedPoint("Server", true);
    assert SameIgnoringCase("server", "Server");
    GetFirstValue(res.header, "Server", "server");
  }
}

=== FILE: http.dfy ===
/** The HTTP exchange as the assertions see it: an immutable response with a
    status code, a header multimap and a re-readable body, plus a read-only view
    of the request. Header lookup follows `http.Header.Get`, which
    canonicalises the key the way `textproto.CanonicalMIMEHeaderKey` does. */
module Http {
  import opened Wrappers
  import opened Text

  // ---------------------------------------------------------------------------
  // Header keys
  // ---------------------------------------------------------------------------

  /** The characters of an RFC 7230 token; a key with any other character is
      left exactly as written by canonicalisation. */
  predicate IsTokenChar(c: char) {
    || ('a' <= c <= 'z')
    || ('A' <= c <= 'Z')
    || ('0' <= c <= '9')
    || c in "!#$%&'*+-.^_`|~"
  }

  predicate IsTokenKey(k: string) {
    forall i :: 0 <= i < |k| ==> IsTokenChar(k[i])
  }

  function ToLowerAscii(c: char): char {
    if 'A' <= c <= 'Z' then (c as int + 32) as char else c
  }

  /** Equal up to ASCII letter case. */
  predicate SameIgnoringCase(a: string, b: string) {
    |a| == |b| && forall i :: 0 <= i < |a| ==> ToLowerAscii(a[i]) == ToLowerAscii(b[i])
  }

  /** One character of a canonical key: upper case at the start of the key and
      after each '-', lower case elsewhere. */
  function CaseAt(c: char, upper: bool): (r: char)
    ensures ToLowerAscii(r) == ToLowerAscii(c)
  {
    if upper && 'a' <= c <= 'z' then (c as int - 32) as char
    else if !upper && 'A' <= c <= 'Z' then (c as int + 32) as char
    else c
  }

  function CanonicalFrom(k: string, upper: bool): (r: string)
    ensures SameIgnoringCase(r, k)
  {
    if |k| == 0 then []
    else [CaseAt(k[0], upper)] + CanonicalFrom(k[1..], k[0] == '-')
  }

  /** `textproto.CanonicalMIMEHeaderKey`: "content-type" becomes
      "Content-Type"; a key holding a non-token character is returned as is. */
  function CanonicalKey(k: string): (r: string)
    ensures SameIgnoringCase(r, k)
    ensures !IsTokenKey(k) ==> r == k
  {
    if IsTokenKey(k) then CanonicalFrom(k, true) else k
  }

  lemma {:induction false} CanonicalFromIgnoresCase(a: string, b: string, upper: bool)
    requires SameIgnoringCase(a, b)
    ensures CanonicalFrom(a, upper) == CanonicalFrom(b, upper)
    decreases |a|
  {
    if |a| > 0 {
      assert ToLowerAscii(a[0]) == ToLowerAscii(b[0]);
      assert SameIgnoringCase(a[1..], b[1..]) by {
        forall i | 0 <= i < |a[1..]|
          ensures ToLowerAscii(a[1..][i]) == ToLowerAscii(b[1..][i])
        {
          assert ToLowerAscii(a[i + 1]) == ToLowerAscii(b[i + 1]);
        }
      }
      CanonicalFromIgnoresCase(a[1..], b[1..], a[0] == '-');
    }
  }

  lemma TokenKeyIgnoresCase(a: string, b: string)
    requires IsTokenKey(a) && SameIgnoringCase(a, b)
    ensures IsTokenKey(b)
  {
    forall i | 0 <= i < |b|
      ensures IsTokenChar(b[i])
    {
      assert ToLowerAscii(a[i]) == ToLowerAscii(b[i]);
    }
  }

  /** Two spellings of a token key that differ only in letter case have the
      same canonical form. */
  lemma CanonicalKeyIgnoresCase(a: string, b: string)
    requires IsTokenKey(a) && SameIgnoringCase(a, b)
    ensures CanonicalKey(a) == CanonicalKey(b)
  {
    TokenKeyIgnoresCase(a, b);
    CanonicalFromIgnoresCase(a, b, true);
  }

  /** Canonicalising a canonical key changes nothing. */
  lemma CanonicalKeyIdempotent(k: string)
    ensures CanonicalKey(CanonicalKey(k)) == CanonicalKey(k)
  {
    if IsTokenKey(k) {
      var c := CanonicalKey(k);
      assert SameIgnoringCase(c, k);
      TokenKeyIgnoresCase(k, c);
      assert SameIgnoringCase(k, c);
      CanonicalKeyIgnoresCase(k, c);
    }
  }

  /** Whether each character of `k` already has the case canonicalisation
      gives it. */
  predicate CasedAsCanonical(k: string, upper: bool) {
    |k| == 0 || (CaseAt(k[0], upper) == k[0] && CasedAsCanonical(k[1..], k[0] == '-'))
  }

  lemma {:induction false} CanonicalFromFixedPoint(k: string, upper: bool)
    requires CasedAsCanonical(k, upper)
    ensures CanonicalFrom(k, upper) == k
    decreases |k|
  {
    if |k| > 0 {
      CanonicalFromFixedPoint(k[1..], k[0] == '-');
      assert k == [k[0]] + k[1..];
    }
  }

  /** Whether position `i` of a key is upper-cased by canonicalisation. */
  predicate UpperAt(k: string, upper: bool, i: int)
    requires 0 <= i < |k|
  {
    if i == 0 then upper else k[i - 1] == '-'
  }

  lemma {:induction false} CasedEverywhere(k: string, upper: bool)
    requires forall i :: 0 <= i < |k| ==> CaseAt(k[i], UpperAt(k, upper, i)) == k[i]
    ensures CasedAsCanonical(k, upper)
    decreases |k|
  {
    if |k| > 0 {
      var t := k[1..];
      forall i | 0 <= i < |t|
        ensures CaseAt(t[i], UpperAt(t, k[0] == '-', i)) == t[i]
      {
        assert t[i] == k[i + 1];
        assert UpperAt(k, upper, i + 1) == UpperAt(t, k[0] == '-', i);
      }
      CasedEverywhere(t, k[0] == '-');
      assert CaseAt(k[0], UpperAt(k, upper, 0)) == k[0];
    }
  }

  /** The keys the assertions look up by name are already canonical. */
  lemma ContentLengthCanonical()
    ensures CanonicalKey("Content-Length") == "Content-Length"
  {
    assert IsTokenKey("Content-Length");
    CasedEverywhere("Content-Length", true);
    CanonicalFromFixedPoint("Content-Length", true);
  }

  lemma ContentTypeCanonical()
    ensures CanonicalKey("Content-Type") == "Content-Type"
  {
    assert IsTokenKey("Content-Type");
    CasedEverywhere("Content-Type", true);
    CanonicalFromFixedPoint("Content-Type", true);
  }

  // ---------------------------------------------------------------------------
  // Header multimap
  // ---------------------------------------------------------------------------

  /** `http.Header`: canonical key to the ordered list of its values. */
  type Header = map<string, seq<string>>

  /** `http.Header.Get`: the first value stored under the canonical form of
      `key`, or "" when there is none. */
  function Get(h: Header, key: string): (v: string)
    ensures v != "" ==> CanonicalKey(key) in h && |h[CanonicalKey(key)]| > 0
    ensures CanonicalKey(key) in h && |h[CanonicalKey(key)]| > 0 ==> v == h[CanonicalKey(key)][0]
    ensures !(CanonicalKey(key) in h && |h[CanonicalKey(key)]| > 0) ==> v == ""
  {
    var ck := CanonicalKey(key);
    if ck in h && |h[ck]| > 0 then h[ck][0] else ""
  }

  /** Header lookup is case-insensitive for token keys: "server" finds what
      "Server" finds. */
  lemma GetIgnoresCase(h: Header, a: string, b: string)
    requires IsTokenKey(a) && SameIgnoringCase(a, b)
    ensures Get(h, a) == Get(h, b)
  {
    CanonicalKeyIgnoresCase(a, b);
  }

  /** A value stored under a canonical key is found by every spelling of that
      key; an absent key reads as "". */
  lemma GetFirstValue(h: Header, stored: string, key: string)
    requires IsTokenKey(stored) && CanonicalKey(stored) == stored
    requires SameIgnoringCase(key, stored)
    ensures stored in h && |h[stored]| > 0 ==> Get(h, key) == h[stored][0]
    ensures (stored !in h || |h[stored]| == 0) ==> Get(h, key) == ""
  {
    assert SameIgnoringCase(stored, key);
    CanonicalKeyIgnoresCase(stored, key);
  }

  // ---------------------------------------------------------------------------
  // Exchange
  // ---------------------------------------------------------------------------

  /** The response body stream: either it reads to the end, yielding its bytes,
      or reading it fails with an error. */
  datatype Body = Buffered(data: seq<byte>) | Failing(cause: string)

  datatype Response = Response(status: int, header: Header, body: Body)

  /** The `*http.Request` handed to every assertion next to the response. */
  datatype RequestView = RequestView(verb: string, url: string, header: Header)

  /** `readBody` (and `readBodyJSON`): read the whole body and put an equal
      stream back so the next consumer sees the same bytes; on a read error
      return the error and leave the response as it was. */
  function ReadBody(res: Response): (r: (Result<seq<byte>, string>, Response))
    ensures r.1 == res
    ensures r.0.Success? <==> res.body.Buffered?
    ensures r.0.Success? ==> r.0.value == res.body.data
    ensures r.0.Failure? ==> r.0.error == res.body.cause
  {
    match res.body
    case Buffered(data) => (Success(data), Response(res.status, res.header, Buffered(data)))
    case Failing(cause) => (Failure(cause), res)
  }

  /** Reading a body twice yields the same result both times. */
  lemma RepeatedReadsAgree(res: Response)
    ensures ReadBody(ReadBody(res).1).0 == ReadBody(res).0
  {
  }
}

=== FILE: json.dfy ===
/** Decoded JSON values and their canonical serialisation, the form
    `json.Marshal` gives a value decoded into `map[string]interface{}`:
    object keys in sorted order, no insignificant whitespace, strings escaped
    the way `encoding/json` escapes them (HTML-safe). Because objects are maps,
    key order and whitespace of the original text are not part of a value. */
module Json {
  import opened Text

  /** A JSON value. A number is the decimal `mantissa * 10^exponent`, as
      written; `Normalize` gives the one spelling of its value. float64
      rounding is not modelled. */
  datatype Json =
    | Null
    | Bool(b: bool)
    | Num(mantissa: int, exponent: int)
    | Str(s: string)
    | Arr(items: seq<Json>)
    | Obj(fields: map<string, Json>)

  // ---------------------------------------------------------------------------
  // Key order: Go compares strings bytewise
  // ---------------------------------------------------------------------------

  predicate LexLe(a: string, b: string)
    decreases |a|
  {
    |a| == 0 || (|b| > 0 && (a[0] < b[0] || (a[0] == b[0] && LexLe(a[1..], b[1..]))))
  }

  lemma {:induction false} LexLeReflexive(a: string)
    ensures LexLe(a, a)
    decreases |a|
  {
    if |a| > 0 {
      LexLeReflexive(a[1..]);
    }
  }

  lemma {:induction false} LexLeAntisymmetric(a: string, b: string)
    requires LexLe(a, b) && LexLe(b, a)
    ensures a == b
    decreases |a|
  {
    if |a| > 0 {
      LexLeAntisymmetric(a[1..], b[1..]);
      assert a == [a[0]] + a[1..] && b == [b[0]] + b[1..];
    }
  }

  lemma LexLeAntisymmetricAll()
    ensures forall a, b :: LexLe(a, b) && LexLe(b, a) ==> a == b
  {
    forall a, b | LexLe(a, b) && LexLe(b, a)
      ensures a == b
    {
      LexLeAntisymmetric(a, b);
    }
  }

  lemma {:induction false} LexLeTransitive(a: string, b: string, c: string)
    requires LexLe(a, b) && LexLe(b, c)
    ensures LexLe(a, c)
    decreases |a|
  {
    if |a| > 0 && a[0] == b[0] && b[0] == c[0] {
      LexLeTransitive(a[1..], b[1..], c[1..]);
    }
  }

  lemma {:induction false} LexLeTotal(a: string, b: string)
    ensures LexLe(a, b) || LexLe(b, a)
    decreases |a|
  {
    if |a| > 0 && |b| > 0 && a[0] == b[0] {
      LexLeTotal(a[1..], b[1..]);
    }
  }

  lemma {:induction false} LeastKeyExists(ks: set<string>)
    requires ks != {}
    ensures exists k :: k in ks && forall j :: j in ks ==> LexLe(k, j)
    decreases ks
  {
    var x :| x in ks;
    if ks == {x} {
      LexLeReflexive(x);
    } else {
      LeastKeyExists(ks - {x});
      var y :| y in ks - {x} && forall j :: j in ks - {x} ==> LexLe(y, j);
      LexLeTotal(x, y);
      if LexLe(x, y) {
        forall j | j in ks
          ensures LexLe(x, j)
        {
          if j == x {
            LexLeReflexive(x);
          } else {
            LexLeTransitive(x, y, j);
          }
        }
        assert x in ks;
      } else {
        forall j | j in ks
          ensures LexLe(y, j)
        {
          if j == x {
            assert LexLe(y, x);
          } else {
            assert j in ks - {x};
          }
        }
        assert y in ks;
      }
    }
  }

  /** The smallest key of a non-empty key set. */
  function LeastKey(ks: set<string>): (k: string)
    requires ks != {}
    ensures k in ks && forall j :: j in ks ==> LexLe(k, j)
  {
    LeastKeyExists(ks);
    LexLeAntisymmetricAll();
    var k :| k in ks && forall j :: j in ks ==> LexLe(k, j);
    k
  }

  /** The keys of an object in the order `json.Marshal` writes them:
      each key once, in strictly increasing order. */
  function SortedKeys(ks: set<string>): (r: seq<string>)
    ensures |r| == |ks|
    ensures forall k :: k in r <==> k in ks
    ensures forall i, j :: 0 <= i < j < |r| ==> LexLe(r[i], r[j]) && r[i] != r[j]
    decreases ks
  {
    if ks == {} then []
    else
      var k := LeastKey(ks);
      var rest := SortedKeys(ks - {k});
      SortedCons(k, ks, rest);
      [k] + rest
  }

  /** The least key in front of the sorted others lists the whole set in
      order. */
  lemma SortedCons(k: string, ks: set<string>, rest: seq<string>)
    requires k in ks && forall j :: j in ks ==> LexLe(k, j)
    requires |rest| == |ks - {k}|
    requires forall j :: j in rest <==> j in ks - {k}
    requires forall i, j :: 0 <= i < j < |rest| ==> LexLe(rest[i], rest[j]) && rest[i] != rest[j]
    ensures |[k] + rest| == |ks|
    ensures forall j :: j in [k] + rest <==> j in ks
    ensures forall i, j :: 0 <= i < j < |[k] + rest| ==>
      LexLe(([k] + rest)[i], ([k] + rest)[j]) && ([k] + rest)[i] != ([k] + rest)[j]
  {
    var r := [k] + rest;
    forall i, j | 0 <= i < j < |r|
      ensures LexLe(r[i], r[j]) && r[i] != r[j]
    {
      if i > 0 {
        assert r[i] == rest[i - 1] && r[j] == rest[j - 1];
      } else {
        assert r[j] == rest[j - 1] && r[j] in rest;
      }
    }
  }

  // ---------------------------------------------------------------------------
  // Number values
  // ---------------------------------------------------------------------------

  function Pow10(k: nat): (p: nat)
    ensures p > 0
  {
    if k == 0 then 1 else 10 * Pow10(k - 1)
  }

  lemma {:induction false} Pow10Add(a: nat, b: nat)
    ensures Pow10(a + b) == Pow10(a) * Pow10(b)
    decreases a
  {
    if a > 0 {
      Pow10Add(a - 1, b);
      assert Pow10(a + b) == 10 * Pow10(a - 1 + b);
    }
  }

  /** Two decimals `m1 * 10^e1` and `m2 * 10^e2` have the same value. */
  predicate SameDecimal(m1: int, e1: int, m2: int, e2: int) {
    if e1 <= e2 then m1 == m2 * Pow10(e2 - e1) else m2 == m1 * Pow10(e1 - e2)
  }

  /** The one spelling of a decimal value: no trailing zero in the mantissa,
      and zero written with exponent 0. */
  predicate CanonicalNum(m: int, e: int) {
    m % 10 != 0 || (m == 0 && e == 0)
  }

  function Abs(m: int): nat {
    if m < 0 then -m else m
  }

  /** The canonical spelling of `m * 10^e`: trailing zeros of the mantissa
      move into the exponent. */
  function Strip(m: int, e: int): (r: (int, int))
    ensures CanonicalNum(r.0, r.1)
    ensures r.0 == 0 <==> m == 0
    ensures m != 0 ==> e <= r.1 && m == r.0 * Pow10(r.1 - e)
    decreases Abs(m)
  {
    if m == 0 then (0, 0)
    else if m % 10 == 0 then
      var r := Strip(m / 10, e + 1);
      assert m == (m / 10) * 10;
      Pow10Add(1, r.1 - (e + 1));
      r
    else (m, e)
  }

  lemma {:induction false} StripScaled(m: int, k: nat, e: int)
    ensures Strip(m * Pow10(k), e) == Strip(m, e + k)
    decreases k
  {
    if k > 0 && m != 0 {
      var n := m * Pow10(k - 1);
      assert m * Pow10(k) == n * 10;
      assert n * 10 != 0 && (n * 10) % 10 == 0 && (n * 10) / 10 == n;
      StripScaled(m, k - 1, e + 1);
    }
  }

  /** Two decimals have the same canonical spelling exactly when they have
      the same value. */
  lemma StripSameDecimal(m1: int, e1: int, m2: int, e2: int)
    ensures Strip(m1, e1) == Strip(m2, e2) <==> SameDecimal(m1, e1, m2, e2)
  {
    if SameDecimal(m1, e1, m2, e2) {
      if e1 <= e2 {
        StripScaled(m2, e2 - e1, e1);
      } else {
        StripScaled(m1, e1 - e2, e2);
      }
    }
    if Strip(m1, e1) == Strip(m2, e2) && m1 != 0 {
      if e1 <= e2 {
        SameStripScaled(m1, e1, m2, e2);
      } else {
        SameStripScaled(m2, e2, m1, e1);
      }
    }
  }

  lemma SameStripScaled(m1: int, e1: int, m2: int, e2: int)
    requires Strip(m1, e1) == Strip(m2, e2) && m1 != 0 && e1 <= e2
    ensures m1 == m2 * Pow10(e2 - e1)
  {
    var (m, e) := Strip(m1, e1);
    var p, q := Pow10(e - e2), Pow10(e2 - e1);
    Pow10Add(e - e2, e2 - e1);
    assert m1 == m * (p * q);
    assert m2 == m * p;
    MulAssoc(m, p, q);
  }

  lemma MulAssoc(a: int, b: int, c: int)
    ensures a * (b * c) == (a * b) * c
  {
  }

  /** A value as `encoding/json` holds it after decoding into an interface:
      every number becomes a float64, so numbers of the same value become
      the same number. The value is kept exactly (see `Strip`). */
  function Normalize(j: Json): (r: Json)
    ensures r.Null? <==> j.Null?
    ensures r.Bool? <==> j.Bool?
    ensures r.Num? <==> j.Num?
    ensures r.Str? <==> j.Str?
    ensures r.Arr? <==> j.Arr?
    ensures r.Obj? <==> j.Obj?
    ensures r.Num? ==> CanonicalNum(r.mantissa, r.exponent)
    decreases j
  {
    match j
    case Num(m, e) => Num(Strip(m, e).0, Strip(m, e).1)
    case Arr(xs) => Arr(seq(|xs|, i requires 0 <= i < |xs| => Normalize(xs[i])))
    case Obj(fields) => Obj(map k | k in fields :: Normalize(fields[k]))
    case _ => j
  }

  /** After normalising, two numbers are equal exactly when their values are. */
  lemma NormalizeNumbers(m1: int, e1: int, m2: int, e2: int)
    ensures Normalize(Num(m1, e1)) == Normalize(Num(m2, e2)) <==> SameDecimal(m1, e1, m2, e2)
  {
    StripSameDecimal(m1, e1, m2, e2);
  }

  // ---------------------------------------------------------------------------
  // Serialisation
  // ---------------------------------------------------------------------------

  /** One character of a string as `json.Marshal` writes it: quote and
      backslash are backslash-escaped, newline, carriage return and tab get
      their short escapes, other control characters and the HTML-sensitive
      '<', '>' and '&' become `\u00XX`; everything else is copied. */
  function EscapeChar(c: char): (r: string)
    ensures 0 < |r|
    ensures r[0] == '\\' || (r == [c] && c != '"' && c != '\\')
  {
    if c == '"' || c == '\\' then ['\\', c]
    else if c == '\n' then "\\n"
    else if c == '\r' then "\\r"
    else if c == '\t' then "\\t"
    else if c < ' ' || c == '<' || c == '>' || c == '&' then
      "\\u00" + [LowerHex(c as int / 16), LowerHex(c as int % 16)]
    else [c]
  }

  function Escape(s: string): string {
    if |s| == 0 then "" else EscapeChar(s[0]) + Escape(s[1..])
  }

  /** A string literal: the escaped characters between double quotes. */
  function Quote(s: string): (r: string)
    ensures 2 <= |r| && r[0] == '"'
  {
    "\"" + Escape(s) + "\""
  }

  function MarshalNumber(mantissa: int, exponent: int): (r: string)
    ensures 0 < |r| && (IsDigit(r[0]) || r[0] == '-')
  {
    Itoa(mantissa) + (if exponent == 0 then "" else "e" + Itoa(exponent))
  }

  /** The canonical text of a value. */
  function Marshal(j: Json): (r: string)
    ensures 0 < |r|
    decreases j, 1
  {
    match j
    case Null => "null"
    case Bool(b) => if b then "true" else "false"
    case Num(m, e) => MarshalNumber(m, e)
    case Str(s) => Quote(s)
    case Arr(xs) => "[" + MarshalItems(xs) + "]"
    case Obj(fields) => "{" + MarshalMembers(fields, SortedKeys(fields.Keys)) + "}"
  }

  /** The first character of a canonical text tells the kind of value:
      '{' an object, '[' an array, '"' a string, a digit or '-' a number,
      'n' null and 't' or 'f' a boolean. */
  lemma MarshalKind(j: Json)
    ensures var c := Marshal(j)[0];
      && (j.Obj? <==> c == '{')
      && (j.Arr? <==> c == '[')
      && (j.Str? <==> c == '"')
      && (j.Num? <==> IsDigit(c) || c == '-')
      && (j.Null? <==> c == 'n')
      && (j.Bool? <==> c == 't' || c == 'f')
  {
  }

  /** Array elements separated by commas. */
  function MarshalItems(xs: seq<Json>): string
    decreases xs, 0
  {
    if |xs| == 0 then ""
    else if |xs| == 1 then Marshal(xs[0])
    else Marshal(xs[0]) + "," + MarshalItems(xs[1..])
  }

  /** The `"key":value` members for the keys `ks`, separated by commas. */
  function MarshalMembers(fields: map<string, Json>, ks: seq<string>): string
    requires forall k :: k in ks ==> k in fields
    decreases Obj(fields), 0, |ks|
  {
    if |ks| == 0 then ""
    else
      var member := Quote(ks[0]) + ":" + Marshal(fields[ks[0]]);
      if |ks| == 1 then member else member + "," + MarshalMembers(fields, ks[1..])
  }
}

=== FILE: json_assert.dfy ===
/** JSON assertions (`assert/json.go`). The response body is decoded into a
    `map[string]interface{}`, the expected value is coerced to the same
    shape, and the two are compared through their `json.Marshal` texts.

    The text decoder of `encoding/json` is a parameter: it turns a text into
    a JSON value as written, or fails with the decoder's syntax error.
    Decoding into a map then accepts an object, turns `null` into the nil
    map (modelled as `Null`) and rejects every other kind of value; every
    number in it becomes a float64, so numbers are held by value
    (`Json.Normalize`). */
module JsonAssert {
  import opened Wrappers
  import opened Text
  import opened Json
  import opened JsonReader
  import opened Failures
  import opened Http

  type Decoder = string -> Result<Json, string>

  /** A decoded map value: an object, or the nil map. */
  predicate IsMapValue(j: Json) {
    j.Null? || j.Obj?
  }

  /** The word `encoding/json` uses for a value that cannot go into a map. */
  function KindName(j: Json): string {
    match j
    case Null => "null"
    case Bool(_) => "bool"
    case Num(_, _) => "number"
    case Str(_) => "string"
    case Arr(_) => "array"
    case Obj(_) => "object"
  }

  /** `unmarshal`: decode a text into a fresh `map[string]interface{}`,
      numbers by value; any error comes back behind "failed to Unmarshal: ". */
  function Unmarshal(decode: Decoder, text: string): (r: Result<Json, Failure>)
    ensures r.Success? <==> decode(text).Success? && IsMapValue(decode(text).value)
    ensures r.Success? ==> r.value == Normalize(decode(text).value)
    ensures r.Failure? ==> r.error.UnmarshalFailed?
    ensures decode(text).Failure? ==> r == Failure(UnmarshalFailed(decode(text).error))
  {
    match decode(text)
    case Failure(syntax) => Failure(UnmarshalFailed(syntax))
    case Success(j) =>
      if IsMapValue(j) then Success(Normalize(j))
      else Failure(UnmarshalFailed("json: cannot unmarshal " + KindName(j)
        + " into Go value of type map[string]interface {}"))
  }

  /** `unmarshalBody`: read the body (putting the same bytes back), report a
      read error unchanged, read an empty body as the nil map without an
      error, and decode anything else. */
  function UnmarshalBody(decode: Decoder, res: Response): (r: (Result<Json, Failure>, Response))
    ensures r.1 == res
    ensures res.body.Failing? ==> r.0 == Failure(Raised(res.body.cause))
    ensures res.body.Buffered? && |res.body.data| == 0 ==> r.0 == Success(Null)
    ensures res.body.Buffered? && |res.body.data| > 0 ==> r.0 == Unmarshal(decode, ToText(res.body.data))
    ensures r.0.Success? ==> IsMapValue(r.0.value)
  {
    var (read, after) := ReadBody(res);
    match read
    case Failure(cause) => (Failure(Raised(cause)), after)
    case Success(data) =>
      if |data| == 0 then (Success(Null), after)
      else (Unmarshal(decode, ToText(data)), after)
  }

  /** The Go types `compare` recognises in its expected argument, in the
      order it tries them, and everything else. `MapValue` is a non-nil map;
      a nil `map[string]interface{}` marshals to "null" and so behaves as
      `OtherValue`, which stands for it. */
  datatype Expected =
    | StringValue(s: string)
    | ReaderValue(stream: Body)
    | MapValue(fields: map<string, Json>)
    | ByteSlice(data: seq<byte>)
    | OtherValue

  /** The expected side of `compare` as a decoded map value: a string is
      decoded as its bytes, a reader is read to the end and decoded, a map
      is marshalled and decoded again, bytes are decoded, and any other
      value leaves the nil map. */
  function Coerce(decode: Decoder, expected: Expected): (r: Result<Json, Failure>)
    ensures r.Success? ==> IsMapValue(r.value)
    ensures expected.OtherValue? ==> r == Success(Null)
    ensures expected.ReaderValue? && expected.stream.Failing? ==> r == Failure(Raised(expected.stream.cause))
    ensures r.Failure? && !expected.ReaderValue? ==> r.error.UnmarshalFailed?
    ensures expected.StringValue? ==> r == Unmarshal(decode, expected.s)
    ensures expected.ReaderValue? && expected.stream.Buffered? ==>
      r == Unmarshal(decode, ToText(expected.stream.data))
    ensures expected.MapValue? ==> r == Unmarshal(decode, Marshal(Obj(expected.fields)))
    ensures expected.ByteSlice? ==> r == Unmarshal(decode, ToText(expected.data))
  {
    match expected
    case StringValue(s) => Unmarshal(decode, s)
    case ReaderValue(stream) =>
      (match stream
       case Failing(cause) => Failure(Raised(cause))
       case Buffered(data) => Unmarshal(decode, ToText(data)))
    case MapValue(fields) => Unmarshal(decode, Marshal(Obj(fields)))
    case ByteSlice(data) => Unmarshal(decode, ToText(data))
    case OtherValue => Success(Null)
  }

  /** `compare`: the body value and the coerced expected value must have the
      same canonical text. Since the canonical text determines the value,
      that is exactly equality of the two values. A mismatch reports the
      body's text as `have` and the expected text as `want`. */
  function Compare(decode: Decoder, body: Json, expected: Expected): (r: Option<Failure>)
    ensures Coerce(decode, expected).Failure? ==> r == Some(Coerce(decode, expected).error)
    ensures Coerce(decode, expected).Success? ==>
      var want := Coerce(decode, expected).value;
      && (r.None? <==> body == want)
      && (r.Some? ==> r.value == JsonMismatch(Marshal(body), Marshal(want)))
  {
    match Coerce(decode, expected)
    case Failure(f) => Some(f)
    case Success(want) =>
      var haveText, wantText := Marshal(body), Marshal(want);
      if haveText != wantText then Some(JsonMismatch(haveText, wantText))
      else
        MarshalInjective(body, want);
        None
  }

  /** `JSON(expected)`: decode the body, then compare. */
  function JSON(decode: Decoder, expected: Expected, res: Response): (r: Option<Failure>)
    ensures UnmarshalBody(decode, res).0.Failure? ==> r == Some(UnmarshalBody(decode, res).0.error)
    ensures UnmarshalBody(decode, res).0.Success? ==>
      r == Compare(decode, UnmarshalBody(decode, res).0.value, expected)
  {
    match UnmarshalBody(decode, res).0
    case Failure(f) => Some(f)
    case Success(body) => Compare(decode, body, expected)
  }

  /** `VerifyJSON(fn)`: decode the body and hand the value to the callback;
      a decode error is returned before the callback runs, and the
      callback's error is returned unchanged. */
  function VerifyJSON(decode: Decoder, verify: Json -> Option<string>, res: Response): (r: Option<Failure>)
    ensures UnmarshalBody(decode, res).0.Failure? ==> r == Some(UnmarshalBody(decode, res).0.error)
    ensures UnmarshalBody(decode, res).0.Success? ==>
      var body := UnmarshalBody(decode, res).0.value;
      && (r.None? <==> verify(body).None?)
      && (r.Some? ==> r.value == Raised(verify(body).value))
  {
    match UnmarshalBody(decode, res).0
    case Failure(f) => Some(f)
    case Success(body) =>
      match verify(body)
      case None => None
      case Some(msg) => Some(Raised(msg))
  }

  // ---------------------------------------------------------------------------
  // Properties of the comparison
  // ---------------------------------------------------------------------------

  /** Only the decoded value of an expected text matters, not its key order
      or spacing: two texts the decoder reads as the same value give the same
      verdict on every body. */
  lemma ExpectedTextOnlyByValue(decode: Decoder, body: Json, a: string, b: string)
    requires decode(a) == decode(b)
    requires IsByteString(a)
    ensures Compare(decode, body, StringValue(a)) == Compare(decode, body, StringValue(b))
    ensures Compare(decode, body, ByteSlice(ToBytes(a))) == Compare(decode, body, StringValue(a))
  {
    ToBytesToText(a);
  }

  /** A generic map passes exactly when the body decodes to that object
      (numbers by value), provided the decoder reads the canonical text of
      the map back as the map itself. */
  lemma MapExpectation(decode: Decoder, body: Json, fields: map<string, Json>)
    requires decode(Marshal(Obj(fields))) == Success(Obj(fields))
    ensures Compare(decode, body, MapValue(fields)).None? <==> body == Normalize(Obj(fields))
  {
  }

  /** An expected value of any other type stays the nil map: it passes only
      against a body that is empty or decodes to `null`, both of which
      serialise as "null". */
  lemma OtherMatchesOnlyNull(decode: Decoder, res: Response)
    requires res.body.Buffered?
    ensures JSON(decode, OtherValue, res).None? <==>
      (|res.body.data| == 0 || decode(ToText(res.body.data)) == Success(Null))
  {
  }

  /** Numbers are compared by value: a body member `1` matches an expected
      member `1.0` or `10e-1`, and never one of another value. */
  lemma NumbersCompareByValue(decode: Decoder, res: Response, text: string, key: string,
                              m1: int, e1: int, m2: int, e2: int)
    requires res.body.Buffered? && |res.body.data| > 0
    requires decode(ToText(res.body.data)) == Success(Obj(map[key := Num(m1, e1)]))
    requires decode(text) == Success(Obj(map[key := Num(m2, e2)]))
    ensures JSON(decode, StringValue(text), res).None? <==> SameDecimal(m1, e1, m2, e2)
  {
    NormalizeSingleton(key, m1, e1);
    NormalizeSingleton(key, m2, e2);
    NormalizeNumbers(m1, e1, m2, e2);
    var a, b := Normalize(Num(m1, e1)), Normalize(Num(m2, e2));
    assert map[key := a] == map[key := b] ==> a == b by {
      if map[key := a] == map[key := b] {
        assert map[key := a][key] == map[key := b][key];
      }
    }
  }

  lemma NormalizeSingleton(key: string, m: int, e: int)
    ensures Normalize(Obj(map[key := Num(m, e)])) == Obj(map[key := Normalize(Num(m, e))])
  {
    var fields := map[key := Num(m, e)];
    assert (map k | k in fields :: Normalize(fields[k])) == map[key := Normalize(Num(m, e))];
  }

  /** When the expected side fails to decode, the unmarshal error is what
      `compare` returns; it is never a mismatch report. */
  lemma ExpectedDecodeFailure(decode: Decoder, body: Json, expected: Expected)
    requires Coerce(decode, expected).Failure? && !expected.ReaderValue?
    ensures Compare(decode, body, expected).Some?
    ensures Compare(decode, body, expected).value.UnmarshalFailed?
  {
  }

  /** An expected text that is a JSON array (or any other non-object) never
      passes: decoding it into a map fails. */
  lemma NonObjectExpectedFails(decode: Decoder, body: Json, text: string, j: Json)
    requires decode(text) == Success(j) && !IsMapValue(j)
    ensures Compare(decode, body, StringValue(text))
      == Some(UnmarshalFailed("json: cannot unmarshal " + KindName(j)
           + " into Go value of type map[string]interface {}"))
  {
  }
}

=== FILE: json_reader.dfy ===
/** A reader for the canonical text `Json.Marshal` writes. It is the partner
    of the serialisation: reading back what was written yields the value that
    was written, so two values with the same canonical text are equal. This is
    what makes comparing re-serialisations the same as comparing values. */
module JsonReader {
  import opened Wrappers
  import opened Text
  import opened Json

  /** What can follow a complete value inside canonical text. */
  predicate Delimited(rest: string) {
    |rest| == 0 || rest[0] == ',' || rest[0] == ']' || rest[0] == '}'
  }

  // ---------------------------------------------------------------------------
  // Strings
  // ---------------------------------------------------------------------------

  function HexValue(c: char): (r: Option<int>)
    ensures r.Some? ==> 0 <= r.value < 16
  {
    if '0' <= c <= '9' then Some(c as int - '0' as int)
    else if 'a' <= c <= 'f' then Some(c as int - 'a' as int + 10)
    else if 'A' <= c <= 'F' then Some(c as int - 'A' as int + 10)
    else None
  }

  /** The character an escape sequence stands for, and how many characters of
      `s` (the text after the backslash) the sequence occupies. */
  function Unescape(s: string): (r: Option<(char, nat)>)
    ensures r.Some? ==> 0 < r.value.1 <= |s|
  {
    if |s| == 0 then None
    else if s[0] == '"' || s[0] == '\\' then Some((s[0], 1))
    else if s[0] == 'n' then Some(('\n', 1))
    else if s[0] == 'r' then Some(('\r', 1))
    else if s[0] == 't' then Some(('\t', 1))
    else if s[0] == 'u' && 5 <= |s| then
      match (HexValue(s[1]), HexValue(s[2]), HexValue(s[3]), HexValue(s[4]))
      case (Some(a), Some(b), Some(c), Some(d)) =>
        var code := ((a * 16 + b) * 16 + c) * 16 + d;
        if code < 0xD800 then Some((code as char, 5)) else None
      case _ => None
    else None
  }

  /** The characters of a string literal up to its closing quote, and the text
      after that quote. */
  function ParseStringBody(s: string): (r: Option<(string, string)>)
    ensures r.Some? ==> |r.value.1| < |s|
    decreases |s|
  {
    if |s| == 0 then None
    else if s[0] == '"' then Some(("", s[1..]))
    else if s[0] == '\\' then
      match Unescape(s[1..])
      case None => None
      case Some((c, n)) =>
        match ParseStringBody(s[1 + n..])
        case None => None
        case Some((t, rest)) => Some(([c] + t, rest))
    else
      match ParseStringBody(s[1..])
      case None => None
      case Some((t, rest)) => Some(([s[0]] + t, rest))
  }

  // ---------------------------------------------------------------------------
  // Numbers
  // ---------------------------------------------------------------------------

  /** The length of the run of digits `s` starts with. */
  function DigitRun(s: string): (k: nat)
    ensures k <= |s|
    ensures forall i :: 0 <= i < k ==> IsDigit(s[i])
    ensures k < |s| ==> !IsDigit(s[k])
  {
    if |s| > 0 && IsDigit(s[0]) then 1 + DigitRun(s[1..]) else 0
  }

  function ParseNatural(s: string): (r: Option<(nat, string)>)
    ensures r.Some? ==> |r.value.1| < |s|
  {
    var k := DigitRun(s);
    if k == 0 then None
    else
      assert AllDigits(s[..k]);
      Some((DigitsValue(s[..k]), s[k..]))
  }

  function ParseInteger(s: string): (r: Option<(int, string)>)
    ensures r.Some? ==> |r.value.1| < |s|
  {
    if |s| > 0 && s[0] == '-' then
      match ParseNatural(s[1..])
      case None => None
      case Some((n, t)) => Some((-(n as int), t))
    else ParseNatural(s)
  }

  function ParseNumber(s: string): (r: Option<(Json, string)>)
    ensures r.Some? ==> |r.value.1| < |s|
  {
    match ParseInteger(s)
    case None => None
    case Some((m, t)) =>
      if |t| > 0 && t[0] == 'e' then
        match ParseInteger(t[1..])
        case None => None
        case Some((e, u)) => Some((Num(m, e), u))
      else Some((Num(m, 0), t))
  }

  // ---------------------------------------------------------------------------
  // Values
  // ---------------------------------------------------------------------------

  /** One value at the start of `s`, and the text after it. */
  function ParseValue(s: string): (r: Option<(Json, string)>)
    ensures r.Some? ==> |r.value.1| < |s|
    decreases |s|, 0
  {
    if |s| == 0 then None
    else if HasPrefix(s, "null") then Some((Null, s[4..]))
    else if HasPrefix(s, "true") then Some((Bool(true), s[4..]))
    else if HasPrefix(s, "false") then Some((Bool(false), s[5..]))
    else if s[0] == '"' then
      match ParseStringBody(s[1..])
      case None => None
      case Some((str, t)) => Some((Str(str), t))
    else if s[0] == '[' then
      if 1 < |s| && s[1] == ']' then Some((Arr([]), s[2..]))
      else
        match ParseItems(s[1..])
        case None => None
        case Some((xs, t)) => Some((Arr(xs), t))
    else if s[0] == '{' then
      if 1 < |s| && s[1] == '}' then Some((Obj(map[]), s[2..]))
      else
        match ParseMembers(s[1..])
        case None => None
        case Some((fields, t)) => Some((Obj(fields), t))
    else ParseNumber(s)
  }

  /** The elements of a non-empty array up to and including its ']'. */
  function ParseItems(s: string): (r: Option<(seq<Json>, string)>)
    ensures r.Some? ==> |r.value.1| < |s|
    decreases |s|, 1
  {
    match ParseValue(s)
    case None => None
    case Some((v, t)) =>
      if |t| > 0 && t[0] == ']' then Some(([v], t[1..]))
      else if |t| > 0 && t[0] == ',' then
        match ParseItems(t[1..])
        case None => None
        case Some((vs, u)) => Some(([v] + vs, u))
      else None
  }

  /** The members of a non-empty object up to and including its '}'; a key
      that occurs twice keeps its last value. */
  function ParseMembers(s: string): (r: Option<(map<string, Json>, string)>)
    ensures r.Some? ==> |r.value.1| < |s|
    decreases |s|, 1
  {
    if |s| == 0 || s[0] != '"' then None
    else
      match ParseStringBody(s[1..])
      case None => None
      case Some((k, t)) =>
        if |t| == 0 || t[0] != ':' then None
        else
          match ParseValue(t[1..])
          case None => None
          case Some((v, u)) =>
            if |u| > 0 && u[0] == '}' then Some((map[k := v], u[1..]))
            else if |u| > 0 && u[0] == ',' then
              match ParseMembers(u[1..])
              case None => None
              case Some((fields, w)) => Some((map[k := v] + fields, w))
            else None
  }

  /** A whole canonical text: one value and nothing after it. */
  function ReadCanonical(s: string): Option<Json> {
    match ParseValue(s)
    case Some((j, rest)) => if |rest| == 0 then Some(j) else None
    case None => None
  }

  // ---------------------------------------------------------------------------
  // Round trip
  // ---------------------------------------------------------------------------

  lemma ParseEscapedChar(c: char, t: string)
    ensures ParseStringBody(EscapeChar(c) + t) ==
      match ParseStringBody(t)
      case None => None
      case Some((u, rest)) => Some(([c] + u, rest))
  {
    if c == '"' || c == '\\' || c == '\n' || c == '\r' || c == '\t' {
      ParseShortEscape(c, t);
    } else if c < ' ' || c == '<' || c == '>' || c == '&' {
      ParseUnicodeEscape(c, t);
    } else {
      var s := EscapeChar(c) + t;
      assert s[0] == c && s[1..] == t;
    }
  }

  lemma ParseShortEscape(c: char, t: string)
    requires c == '"' || c == '\\' || c == '\n' || c == '\r' || c == '\t'
    ensures ParseStringBody(EscapeChar(c) + t) ==
      match ParseStringBody(t)
      case None => None
      case Some((u, rest)) => Some(([c] + u, rest))
  {
    var s := EscapeChar(c) + t;
    assert |EscapeChar(c)| == 2 && s[0] == '\\';
    assert Unescape(s[1..]) == Some((c, 1));
    assert s[2..] == t;
  }

  lemma ParseUnicodeEscape(c: char, t: string)
    requires c < ' ' || c == '<' || c == '>' || c == '&'
    requires c != '"' && c != '\\' && c != '\n' && c != '\r' && c != '\t'
    ensures ParseStringBody(EscapeChar(c) + t) ==
      match ParseStringBody(t)
      case None => None
      case Some((u, rest)) => Some(([c] + u, rest))
  {
    var hi, lo := c as int / 16, c as int % 16;
    var a, b := LowerHex(hi), LowerHex(lo);
    assert EscapeChar(c) == "\\u00" + [a, b];
    var s := EscapeChar(c) + t;
    UnicodeShape(a, b, t);
    assert HexValue(a) == Some(hi);
    assert HexValue(b) == Some(lo);
    assert Unescape(s[1..]) == Some((c, 5));
  }

  lemma UnicodeShape(a: char, b: char, t: string)
    ensures var s := "\\u00" + [a, b] + t;
      && s[0] == '\\'
      && |s[1..]| >= 5
      && s[1..][0] == 'u' && s[1..][1] == '0' && s[1..][2] == '0'
      && s[1..][3] == a && s[1..][4] == b
      && s[1..][5..] == t
      && s[6..] == t
  {
  }

  lemma {:induction false} StringRoundTrip(str: string, rest: string)
    ensures ParseStringBody(Escape(str) + "\"" + rest) == Some((str, rest))
    decreases |str|
  {
    if |str| == 0 {
      assert Escape(str) + "\"" + rest == "\"" + rest;
    } else {
      var t := Escape(str[1..]) + "\"" + rest;
      assert Escape(str) + "\"" + rest == EscapeChar(str[0]) + t;
      ParseEscapedChar(str[0], t);
      StringRoundTrip(str[1..], rest);
      assert [str[0]] + str[1..] == str;
    }
  }

  lemma {:induction false} DigitRunOfDigits(d: string, t: string)
    requires AllDigits(d)
    requires |t| == 0 || !IsDigit(t[0])
    ensures DigitRun(d + t) == |d|
    decreases |d|
  {
    if |d| > 0 {
      assert (d + t)[1..] == d[1..] + t;
      DigitRunOfDigits(d[1..], t);
    }
  }

  lemma ParseNaturalDigits(n: nat, t: string)
    requires |t| == 0 || !IsDigit(t[0])
    ensures ParseNatural(DigitsOf(n) + t) == Some((n, t))
  {
    var d := DigitsOf(n);
    DigitRunOfDigits(d, t);
    DigitsRoundTrip(n);
    assert (d + t)[..|d|] == d;
    assert (d + t)[|d|..] == t;
  }

  lemma ParseIntegerItoa(n: int, t: string)
    requires |t| == 0 || !IsDigit(t[0])
    ensures ParseInteger(Itoa(n) + t) == Some((n, t))
  {
    if n < 0 {
      ParseNegativeItoa(n, t);
    } else {
      var d := DigitsOf(n);
      assert Itoa(n) == d;
      assert (d + t)[0] == d[0] && IsDigit(d[0]);
      ParseNaturalDigits(n, t);
    }
  }

  lemma ParseNegativeItoa(n: int, t: string)
    requires n < 0
    requires |t| == 0 || !IsDigit(t[0])
    ensures ParseInteger(Itoa(n) + t) == Some((n, t))
  {
    var d := DigitsOf(-n);
    assert Itoa(n) == "-" + d;
    SignedShape(d, t);
    ParseNaturalDigits(-n, t);
    ParseIntegerNegative("-" + d + t, -n, t);
  }

  lemma SignedShape(d: string, t: string)
    ensures ("-" + d + t)[0] == '-' && ("-" + d + t)[1..] == d + t
  {
  }

  lemma ParseIntegerNegative(s: string, m: nat, t: string)
    requires |s| > 0 && s[0] == '-'
    requires ParseNatural(s[1..]) == Some((m, t))
    ensures ParseInteger(s) == Some((-(m as int), t))
  {
  }

  lemma ParseNumberPlain(s: string, m: int, t: string)
    requires ParseInteger(s) == Some((m, t))
    requires Delimited(t)
    ensures ParseNumber(s) == Some((Num(m, 0), t))
  {
  }

  lemma ParseNumberScaled(s: string, m: int, t: string, e: int, u: string)
    requires ParseInteger(s) == Some((m, t))
    requires |t| > 0 && t[0] == 'e'
    requires ParseInteger(t[1..]) == Some((e, u))
    ensures ParseNumber(s) == Some((Num(m, e), u))
  {
  }

  /** The canonical text of a number with an exponent, taken apart. */
  lemma MarshalNumberScaled(m: int, e: int, rest: string)
    requires e != 0
    ensures MarshalNumber(m, e) + rest == Itoa(m) + ("e" + (Itoa(e) + rest))
  {
  }

  lemma ParseNumberRoundTrip(m: int, e: int, rest: string)
    requires Delimited(rest)
    ensures ParseNumber(MarshalNumber(m, e) + rest) == Some((Num(m, e), rest))
  {
    if e == 0 {
      ParseUnscaledRoundTrip(m, rest);
    } else {
      ParseScaledRoundTrip(m, e, rest);
    }
  }

  lemma ParseUnscaledRoundTrip(m: int, rest: string)
    requires Delimited(rest)
    ensures ParseNumber(MarshalNumber(m, 0) + rest) == Some((Num(m, 0), rest))
  {
    assert MarshalNumber(m, 0) == Itoa(m);
    ParseIntegerItoa(m, rest);
    ParseNumberPlain(Itoa(m) + rest, m, rest);
  }

  lemma ParseScaledRoundTrip(m: int, e: int, rest: string)
    requires e != 0 && Delimited(rest)
    ensures ParseNumber(MarshalNumber(m, e) + rest) == Some((Num(m, e), rest))
  {
    var t := "e" + (Itoa(e) + rest);
    MarshalNumberScaled(m, e, rest);
    ParseIntegerItoa(m, t);
    assert t[1..] == Itoa(e) + rest;
    ParseIntegerItoa(e, rest);
    ParseNumberScaled(Itoa(m) + t, m, t, e, rest);
  }

  /** A text that starts with a character other than 'n', 't' and 'f' is not
      a literal. */
  lemma NotLiteral(s: string)
    requires |s| > 0 && s[0] != 'n' && s[0] != 't' && s[0] != 'f'
    ensures !HasPrefix(s, "null") && !HasPrefix(s, "true") && !HasPrefix(s, "false")
  {
    if 4 <= |s| { assert s[..4][0] == s[0]; }
    if 5 <= |s| { assert s[..5][0] == s[0]; }
  }

  lemma ParseValueNumber(s: string)
    requires |s| > 0 && (IsDigit(s[0]) || s[0] == '-')
    ensures ParseValue(s) == ParseNumber(s)
  {
    NotLiteral(s);
  }

  lemma ParseValueString(s: string, str: string, t: string)
    requires |s| > 0 && s[0] == '"'
    requires ParseStringBody(s[1..]) == Some((str, t))
    ensures ParseValue(s) == Some((Str(str), t))
  {
    NotLiteral(s);
  }

  lemma ParseValueArray(s: string, xs: seq<Json>, t: string)
    requires 1 < |s| && s[0] == '[' && s[1] != ']'
    requires ParseItems(s[1..]) == Some((xs, t))
    ensures ParseValue(s) == Some((Arr(xs), t))
  {
    NotLiteral(s);
  }

  lemma ParseValueObject(s: string, fields: map<string, Json>, t: string)
    requires 1 < |s| && s[0] == '{' && s[1] != '}'
    requires ParseMembers(s[1..]) == Some((fields, t))
    ensures ParseValue(s) == Some((Obj(fields), t))
  {
    NotLiteral(s);
  }

  lemma ParseMembersLast(s: string, k: string, t: string, v: Json, u: string)
    requires |s| > 0 && s[0] == '"' && ParseStringBody(s[1..]) == Some((k, t))
    requires |t| > 0 && t[0] == ':' && ParseValue(t[1..]) == Some((v, u))
    requires |u| > 0 && u[0] == '}'
    ensures ParseMembers(s) == Some((map[k := v], u[1..]))
  {
  }

  lemma ParseMembersMore(s: string, k: string, t: string, v: Json, u: string,
                         fields: map<string, Json>, w: string)
    requires |s| > 0 && s[0] == '"' && ParseStringBody(s[1..]) == Some((k, t))
    requires |t| > 0 && t[0] == ':' && ParseValue(t[1..]) == Some((v, u))
    requires |u| > 0 && u[0] == ',' && ParseMembers(u[1..]) == Some((fields, w))
    ensures ParseMembers(s) == Some((map[k := v] + fields, w))
  {
  }

  /** The members named by `ks`, as a map. */
  function Restrict(fields: map<string, Json>, ks: seq<string>): (r: map<string, Json>)
    requires forall k :: k in ks ==> k in fields
    ensures forall k :: k in r <==> k in ks
    ensures forall k :: k in r ==> r[k] == fields[k]
  {
    map k | k in ks :: fields[k]
  }

  lemma RestrictCons(fields: map<string, Json>, ks: seq<string>)
    requires 0 < |ks|
    requires forall k :: k in ks ==> k in fields
    ensures Restrict(fields, ks) == map[ks[0] := fields[ks[0]]] + Restrict(fields, ks[1..])
  {
    var l := Restrict(fields, ks);
    var r := map[ks[0] := fields[ks[0]]] + Restrict(fields, ks[1..]);
    assert forall k :: k in ks <==> k == ks[0] || k in ks[1..] by {
      assert ks == [ks[0]] + ks[1..];
    }
    assert l.Keys == r.Keys;
  }

  lemma RestrictAll(fields: map<string, Json>)
    ensures Restrict(fields, SortedKeys(fields.Keys)) == fields
  {
  }

  /** Reading the canonical text of a value, followed by anything that may
      follow a value, yields that value and leaves the rest. */
  lemma {:induction false} ParseMarshal(j: Json, rest: string)
    requires Delimited(rest)
    ensures ParseValue(Marshal(j) + rest) == Some((j, rest))
    decreases j, 3
  {
    var s := Marshal(j) + rest;
    match j
    case Null =>
      assert s[..4] == "null" && s[4..] == rest;
    case Bool(b) =>
      if b {
        assert s[..4] == "true" && s[4..] == rest;
      } else {
        assert s[0] == 'f' && s[..5] == "false" && s[5..] == rest;
        assert !HasPrefix(s, "null") && !HasPrefix(s, "true");
      }
    case Num(m, e) =>
      ParseNumberRoundTrip(m, e, rest);
      ParseValueNumber(s);
    case Str(str) =>
      assert s[1..] == Escape(str) + "\"" + rest;
      StringRoundTrip(str, rest);
      ParseValueString(s, str, rest);
    case Arr(xs) =>
      ParseMarshalArray(xs, rest);
    case Obj(fields) =>
      ParseMarshalObject(fields, rest);
  }

  lemma {:induction false} ParseMarshalArray(xs: seq<Json>, rest: string)
    requires Delimited(rest)
    ensures ParseValue(Marshal(Arr(xs)) + rest) == Some((Arr(xs), rest))
    decreases Arr(xs), 1
  {
    var s := Marshal(Arr(xs)) + rest;
    if |xs| == 0 {
      assert s[2..] == rest;
    } else {
      var body := MarshalItems(xs) + "]" + rest;
      assert s == "[" + body;
      assert s[1..] == body;
      ParseMarshalItems(xs, rest);
      assert s[1] != ']' by {
        var x := xs[0];
        if |xs| == 1 {
          assert MarshalItems(xs) == Marshal(x);
        } else {
          assert MarshalItems(xs) == Marshal(x) + "," + MarshalItems(xs[1..]);
        }
        MarshalStart(x);
      }
      ParseValueArray(s, xs, rest);
    }
  }

  /** No canonical text starts with a closing bracket. */
  lemma MarshalStart(j: Json)
    ensures Marshal(j)[0] != ']' && Marshal(j)[0] != '}'
  {
  }

  lemma MembersStart(fields: map<string, Json>, ks: seq<string>)
    requires 0 < |ks|
    requires forall k :: k in ks ==> k in fields
    ensures 0 < |MarshalMembers(fields, ks)| && MarshalMembers(fields, ks)[0] == '"'
  {
  }

  lemma {:induction false} ParseMarshalObject(fields: map<string, Json>, rest: string)
    requires Delimited(rest)
    ensures ParseValue(Marshal(Obj(fields)) + rest) == Some((Obj(fields), rest))
    decreases Obj(fields), 2
  {
    var ks := SortedKeys(fields.Keys);
    if |ks| == 0 {
      EmptyObjectText(fields);
      ParseEmptyObject(rest);
    } else {
      var members := MarshalMembers(fields, ks);
      assert Marshal(Obj(fields)) == "{" + members + "}";
      ObjectShape(members, rest);
      ParseMarshalNonEmptyObject(fields, rest);
    }
  }

  lemma EmptyObjectText(fields: map<string, Json>)
    requires |SortedKeys(fields.Keys)| == 0
    ensures fields == map[] && Marshal(Obj(fields)) == "{}"
  {
    assert fields.Keys == {};
    assert MarshalMembers(fields, SortedKeys(fields.Keys)) == "";
  }

  lemma ObjectShape(members: string, rest: string)
    ensures "{" + members + "}" + rest == "{" + (members + "}" + rest)
  {
  }

  lemma ParseEmptyObject(rest: string)
    ensures ParseValue("{}" + rest) == Some((Obj(map[]), rest))
  {
    var s := "{}" + rest;
    NotLiteral(s);
    assert s[2..] == rest;
  }

  lemma {:induction false} ParseMarshalNonEmptyObject(fields: map<string, Json>, rest: string)
    requires Delimited(rest)
    requires |SortedKeys(fields.Keys)| != 0
    ensures ParseValue("{" + (MarshalMembers(fields, SortedKeys(fields.Keys)) + "}" + rest)) == Some((Obj(fields), rest))
    decreases Obj(fields), 1
  {
    var ks := SortedKeys(fields.Keys);
    var members := MarshalMembers(fields, ks);
    var s := "{" + (members + "}" + rest);
    assert s[1..] == members + "}" + rest;
    MembersStart(fields, ks);
    ParseMarshalMembers(fields, ks, rest);
    RestrictAll(fields);
    ParseValueObject(s, fields, rest);
  }

  lemma {:induction false} ParseMarshalItems(xs: seq<Json>, rest: string)
    requires |xs| > 0
    ensures ParseItems(MarshalItems(xs) + "]" + rest) == Some((xs, rest))
    decreases xs, 0
  {
    var s := MarshalItems(xs) + "]" + rest;
    if |xs| == 1 {
      assert MarshalItems(xs) == Marshal(xs[0]);
      ItemsLastShape(Marshal(xs[0]), rest);
      ParseMarshal(xs[0], "]" + rest);
      ParseItemsLast(s, xs[0], rest);
      assert xs == [xs[0]];
    } else {
      var others := MarshalItems(xs[1..]);
      assert MarshalItems(xs) == Marshal(xs[0]) + "," + others;
      ItemsMoreShape(Marshal(xs[0]), others, rest);
      ParseMarshal(xs[0], "," + (others + "]" + rest));
      ParseMarshalItems(xs[1..], rest);
      ParseItemsMore(s, xs[0], others + "]" + rest, xs[1..], rest);
      assert xs == [xs[0]] + xs[1..];
    }
  }

  lemma ItemsLastShape(v: string, rest: string)
    ensures v + "]" + rest == v + ("]" + rest)
  {
  }

  lemma ItemsMoreShape(v: string, others: string, rest: string)
    ensures v + "," + others + "]" + rest == v + ("," + (others + "]" + rest))
  {
  }

  lemma ParseItemsLast(s: string, v: Json, rest: string)
    requires ParseValue(s) == Some((v, "]" + rest))
    ensures ParseItems(s) == Some(([v], rest))
  {
    var t := "]" + rest;
    assert t[0] == ']' && t[1..] == rest;
  }

  lemma ParseItemsMore(s: string, v: Json, t: string, vs: seq<Json>, u: string)
    requires ParseValue(s) == Some((v, "," + t))
    requires ParseItems(t) == Some((vs, u))
    ensures ParseItems(s) == Some(([v] + vs, u))
  {
    var w := "," + t;
    assert w[0] == ',' && w[1..] == t;
  }

  /** What follows the value of the first member named by `ks`. */
  function MembersTail(fields: map<string, Json>, ks: seq<string>, rest: string): string
    requires 0 < |ks|
    requires forall k :: k in ks ==> k in fields
  {
    if |ks| == 1 then "}" + rest else "," + (MarshalMembers(fields, ks[1..]) + "}" + rest)
  }

  lemma LastMemberShape(e: string, v: string, rest: string)
    ensures ("\"" + e + "\"" + ":" + v) + "}" + rest == "\"" + (e + "\"" + (":" + (v + ("}" + rest))))
  {
  }

  lemma MemberShape(e: string, v: string, others: string, rest: string)
    ensures ("\"" + e + "\"" + ":" + v + "," + others) + "}" + rest
      == "\"" + (e + "\"" + (":" + (v + ("," + (others + "}" + rest)))))
  {
  }

  /** The canonical members, taken apart at their first value. */
  lemma MembersText(fields: map<string, Json>, ks: seq<string>, rest: string)
    requires 0 < |ks|
    requires forall k :: k in ks ==> k in fields
    ensures MarshalMembers(fields, ks) + "}" + rest
      == "\"" + (Escape(ks[0]) + "\"" + (":" + (Marshal(fields[ks[0]]) + MembersTail(fields, ks, rest))))
  {
    var e, v := Escape(ks[0]), Marshal(fields[ks[0]]);
    if |ks| == 1 {
      assert MarshalMembers(fields, ks) == "\"" + e + "\"" + ":" + v;
      LastMemberShape(e, v, rest);
    } else {
      var others := MarshalMembers(fields, ks[1..]);
      assert MarshalMembers(fields, ks) == "\"" + e + "\"" + ":" + v + "," + others;
      MemberShape(e, v, others, rest);
    }
  }

  lemma {:induction false} ParseMarshalMembers(fields: map<string, Json>, ks: seq<string>, rest: string)
    requires |ks| > 0
    requires forall k :: k in ks ==> k in fields
    ensures ParseMembers(MarshalMembers(fields, ks) + "}" + rest) == Some((Restrict(fields, ks), rest))
    decreases Obj(fields), 0, |ks|
  {
    var k := ks[0];
    var tail := MembersTail(fields, ks, rest);
    var afterKey := ":" + (Marshal(fields[k]) + tail);
    var s := "\"" + (Escape(k) + "\"" + afterKey);
    MembersText(fields, ks, rest);
    QuotedShape(Escape(k), afterKey);
    StringRoundTrip(k, afterKey);
    ColonShape(Marshal(fields[k]), tail);
    ParseMarshal(fields[k], tail);
    if |ks| == 1 {
      LastTail(fields, ks, rest);
      ParseMembersLast(s, k, afterKey, fields[k], tail);
      RestrictOne(fields, ks);
    } else {
      MoreTail(fields, ks, rest);
      ParseMarshalMembers(fields, ks[1..], rest);
      ParseMembersMore(s, k, afterKey, fields[k], tail, Restrict(fields, ks[1..]), rest);
      RestrictCons(fields, ks);
    }
  }

  lemma QuotedShape(e: string, t: string)
    ensures ("\"" + (e + "\"" + t))[0] == '"'
    ensures ("\"" + (e + "\"" + t))[1..] == e + "\"" + t
  {
  }

  lemma ColonShape(v: string, t: string)
    ensures (":" + (v + t))[0] == ':' && (":" + (v + t))[1..] == v + t
  {
  }

  lemma LastTail(fields: map<string, Json>, ks: seq<string>, rest: string)
    requires |ks| == 1
    requires forall k :: k in ks ==> k in fields
    ensures |MembersTail(fields, ks, rest)| > 0 && MembersTail(fields, ks, rest)[0] == '}'
    ensures MembersTail(fields, ks, rest)[1..] == rest
  {
  }

  lemma MoreTail(fields: map<string, Json>, ks: seq<string>, rest: string)
    requires |ks| > 1
    requires forall k :: k in ks ==> k in fields
    ensures |MembersTail(fields, ks, rest)| > 0 && MembersTail(fields, ks, rest)[0] == ','
    ensures MembersTail(fields, ks, rest)[1..] == MarshalMembers(fields, ks[1..]) + "}" + rest
  {
    var t := MarshalMembers(fields, ks[1..]) + "}" + rest;
    assert MembersTail(fields, ks, rest) == "," + t;
  }

  lemma RestrictOne(fields: map<string, Json>, ks: seq<string>)
    requires |ks| == 1
    requires forall k :: k in ks ==> k in fields
    ensures Restrict(fields, ks) == map[ks[0] := fields[ks[0]]]
  {
  }

  /** Reading back the canonical text of a value yields the value. */
  lemma ReadMarshal(j: Json)
    ensures ReadCanonical(Marshal(j)) == Some(j)
  {
    ParseMarshal(j, "");
    assert Marshal(j) + "" == Marshal(j);
  }

  /** Two values with the same canonical text are the same value. */
  lemma MarshalInjective(a: Json, b: Json)
    requires Marshal(a) == Marshal(b)
    ensures a == b
  {
    ReadMarshal(a);
    ReadMarshal(b);
  }
}

=== FILE: log.dfy ===
/** The pure string helpers of the test logger (`log.go`): indenting a
    message that starts on a new line, and shortening the caller's file
    name. Walking the stack and writing to the test log are not modelled. */
module Log {
  import opened Text

  /** `strings.Index(s, string(c))` for a single byte `c`: -1 when absent. */
  function FirstIndex(s: string, c: char): (i: int)
    ensures -1 <= i < |s|
    ensures 0 <= i ==> s[i] == c && forall j :: 0 <= j < i ==> s[j] != c
    ensures i < 0 ==> forall j :: 0 <= j < |s| ==> s[j] != c
    decreases |s|
  {
    if |s| == 0 then -1
    else if s[0] == c then 0
    else
      var i := FirstIndex(s[1..], c);
      if i < 0 then -1 else i + 1
  }

  /** `strings.Replace(s, string(c), with, 1)`: the first `c`, if any, becomes
      `with`; the rest of `s` is kept. */
  function ReplaceFirst(s: string, c: char, with: string): (r: string)
    ensures FirstIndex(s, c) < 0 ==> r == s
    ensures var k := FirstIndex(s, c);
      0 <= k ==> r == s[..k] + with + s[k + 1..]
    decreases |s|
  {
    if |s| == 0 then s
    else if s[0] == c then
      assert s[..0] + with + s[1..] == with + s[1..];
      with + s[1..]
    else
      var rest := ReplaceFirst(s[1..], c, with);
      var k := FirstIndex(s[1..], c);
      if k < 0 then
        assert [s[0]] + s[1..] == s;
        [s[0]] + rest
      else
        ConsReplaced(s, k, with);
        [s[0]] + rest
  }

  /** Putting the head back in front of a tail whose `k`-th element was
      replaced. */
  lemma ConsReplaced(s: string, k: nat, with: string)
    requires k + 1 < |s|
    ensures [s[0]] + (s[1..][..k] + with + s[1..][k + 1..]) == s[..k + 1] + with + s[k + 2..]
  {
    assert s[..k + 1] == [s[0]] + s[1..][..k];
    assert s[k + 2..] == s[1..][k + 1..];
  }

  lemma ReplaceAtStart(s: string, c: char, with: string)
    requires |s| > 0 && s[0] == c
    ensures ReplaceFirst(s, c, with) == with + s[1..]
  {
  }

  lemma ReplacedHeadShape(s: string, with: string)
    requires |s| > 0
    ensures |with + s[1..]| == |s| + |with| - 1
    ensures (with + s[1..])[..|with|] == with
    ensures forall i :: 1 <= i < |s| ==> (with + s[1..])[i + |with| - 1] == s[i]
  {
  }

  /** `tabify`: a format that starts with a newline gets two tabs after that
      newline and nowhere else; any other format is kept as it is. */
  function Tabify(format: string): (r: string)
    ensures !HasPrefix(format, "\n") ==> r == format
    ensures HasPrefix(format, "\n") ==>
      && |r| == |format| + 2
      && r[..3] == "\n\t\t"
      && forall i :: 1 <= i < |format| ==> r[i + 2] == format[i]
  {
    if HasPrefix(format, "\n") then
      var tabbed := "\n\t\t";
      var r := ReplaceFirst(format, '\n', tabbed);
      ReplaceAtStart(format, '\n', tabbed);
      ReplacedHeadShape(format, tabbed);
      r
    else format
  }

  /** Dropping the two tabs again gives back the format. */
  lemma UntabifyInverse(format: string)
    requires HasPrefix(format, "\n")
    ensures "\n" + Tabify(format)[3..] == format
  {
    var r := Tabify(format);
    assert ("\n" + r[3..])[0] == format[0];
    assert forall i :: 1 <= i < |format| ==> ("\n" + r[3..])[i] == r[i + 2];
  }

  /** The file name as the logger prints it: what follows the last '/', or
      failing that the last '\\', or the whole name when it has neither. */
  function TruncateFileName(file: string): (r: string)
    ensures |r| <= |file| && r == file[|file| - |r|..]
    ensures (exists i :: 0 <= i < |file| && file[i] == '/') ==>
      && |r| < |file|
      && file[|file| - |r| - 1] == '/'
      && forall i :: 0 <= i < |r| ==> r[i] != '/'
    ensures (forall i :: 0 <= i < |file| ==> file[i] != '/') ==>
      if exists i :: 0 <= i < |file| && file[i] == '\\' then
        && |r| < |file|
        && file[|file| - |r| - 1] == '\\'
        && forall i :: 0 <= i < |r| ==> r[i] != '\\'
      else r == file
  {
    var slash := LastIndex(file, '/');
    if slash >= 0 then file[slash + 1..]
    else
      var backslash := LastIndex(file, '\\');
      if backslash >= 0 then file[backslash + 1..] else file
  }

  /** Truncation gives back the base name of a path: the part after the
      directory, when the name itself holds no separator. */
  lemma BaseName(dir: string, name: string)
    requires forall i :: 0 <= i < |name| ==> name[i] != '/' && name[i] != '\\'
    ensures TruncateFileName(dir + "/" + name) == name
  {
    var file := dir + "/" + name;
    assert file[|dir|] == '/';
    var r := TruncateFileName(file);
    assert file[|dir| + 1..] == name;
  }

  /** Where the logger says a message comes from: the truncated file name
      and the line, or "???" at line 1 when the caller cannot be found. */
  function Location(ok: bool, file: string, line: int): (loc: (string, int))
    ensures !ok ==> loc == ("???", 1)
    ensures ok ==> loc.1 == line && IsSuffixOf(loc.0, file)
    ensures ok ==> loc == (TruncateFileName(file), line)
  {
    if ok then (TruncateFileName(file), line) else ("???", 1)
  }

  predicate IsSuffixOf(s: string, t: string) {
    |s| <= |t| && s == t[|t| - |s|..]
  }
}

=== FILE: regex.dfy ===
/** Go's RE2 `regexp` package is a collaborator whose semantics are not part of
    this model: an engine is given by whether a pattern compiles and whether a
    compiled pattern matches somewhere in a text (an unanchored search). */
module Regex {

  datatype Engine = Engine(compiles: string -> bool, search: (string, string) -> bool)

  /** `regexp.MatchString(pattern, text)` with its error discarded, as every
      caller in the assertion library does: a pattern that does not compile
      never matches. */
  function MatchString(re: Engine, pattern: string, text: string): (m: bool)
    ensures m ==> re.compiles(pattern)
    ensures re.compiles(pattern) ==> (m <==> re.search(pattern, text))
  {
    re.compiles(pattern) && re.search(pattern, text)
  }
}

=== FILE: request.dfy ===
/** The single-use guard of a request (`request.go`): a request can hand out
    an expectation suite once. The HTTP request it wraps and its builder
    methods are not part of this model; only the `tested` flag and the
    attached client are. */
module Requests {
  import opened Wrappers
  import E = Expectations

  /** An attached client, known by its identity only. */
  type ClientId = nat

  datatype Request = Request(tested: bool, client: Option<ClientId>)

  /** `NewRequest`: untested, with no client. */
  function NewRequest(): (r: Request)
    ensures !r.tested && r.client.None?
  {
    Request(false, None)
  }

  /** `SetClient`: attaches a client and leaves the flag alone. */
  function SetClient(r: Request, client: ClientId): (r': Request)
    ensures r'.client == Some(client) && r'.tested == r.tested
  {
    r.(client := Some(client))
  }

  /** `Clone`: a fresh request that is untested and has no client, whatever
      the state of the original. */
  function Clone(r: Request): (c: Request)
    ensures !c.tested && c.client.None?
  {
    Request(false, None)
  }

  const AlreadyTested: string := "[baloo] request already tested"

  /** The result of asking a request for its expectation suite: the request
      afterwards, the suite (nil when refused), and what was reported to
      the test. */
  datatype ExpectOutcome = ExpectOutcome(request: Request, suite: Option<E.Expect>, reported: seq<string>)

  /** `Expect(t)`: the first call marks the request tested and returns a new
      suite bound to the test; a later call reports the request as already
      tested and returns nil. */
  function Expect(r: Request): (o: ExpectOutcome)
    ensures o.request.tested && o.request.client == r.client
    ensures o.suite.Some? <==> !r.tested
    ensures o.suite.Some? ==> o.suite.value.bound && |o.suite.value.assertions| == 0 && o.reported == []
    ensures o.suite.None? ==> o.request == r && o.reported == [AlreadyTested]
  {
    if r.tested then ExpectOutcome(r, None, [AlreadyTested])
    else ExpectOutcome(r.(tested := true), Some(E.BindTest(E.NewExpect())), [])
  }

  /** `Assert(t)` is another name for `Expect(t)`. */
  function Assert(r: Request): (o: ExpectOutcome)
    ensures o == Expect(r)
  {
    Expect(r)
  }

  /** Asking `n` times in a row: the request afterwards, how many suites were
      handed out, and every report, in order. */
  function ExpectTimes(r: Request, n: nat): (Request, nat, seq<string>)
    decreases n
  {
    if n == 0 then (r, 0, [])
    else
      var o := Expect(r);
      var (after, handed, reports) := ExpectTimes(o.request, n - 1);
      (after, (if o.suite.Some? then 1 else 0) + handed, o.reported + reports)
  }

  /** However often it is asked, a request hands out at most one suite (one
      exactly when it starts untested and is asked at all), and every other
      call reports it as already tested. */
  lemma {:induction false} AtMostOneSuite(r: Request, n: nat)
    ensures var (after, handed, reports) := ExpectTimes(r, n);
      && handed == (if !r.tested && n > 0 then 1 else 0)
      && |reports| == n - handed
      && (forall i :: 0 <= i < |reports| ==> reports[i] == AlreadyTested)
      && (n > 0 ==> after.tested)
      && after.client == r.client
    decreases n
  {
    if n > 0 {
      var o := Expect(r);
      AtMostOneSuite(o.request, n - 1);
      var (after, handed, reports) := ExpectTimes(o.request, n - 1);
      assert o.request.tested && handed == 0;
      assert ExpectTimes(r, n) == (after, (if o.suite.Some? then 1 else 0) + handed, o.reported + reports);
    }
  }

  /** The tested flag is never cleared by asking again. */
  lemma {:induction false} TestedStaysSet(r: Request, n: nat)
    requires r.tested
    ensures ExpectTimes(r, n).0 == r
    ensures ExpectTimes(r, n).1 == 0
    decreases n
  {
    if n > 0 {
      TestedStaysSet(r, n - 1);
    }
  }

  /** A clone can always be tested, even when its original has been. */
  lemma CloneTestsAgain(r: Request)
    ensures Expect(Clone(r)).suite.Some?
    ensures Expect(Expect(r).request).suite.None?
  {
  }
}

=== FILE: schema.dfy ===
/** JSON-schema assertion (`assert/json_schema.go`). Loading a schema and
    validating a document are done by a validator library, which is a
    parameter here; the model covers how the schema string is routed to a
    loader and how the validator's verdict becomes an error. */
module SchemaAssert {
  import opened Wrappers
  import opened Text
  import opened Failures
  import opened Http

  /** Where the validator takes a document from: a URI to load, or the
      document text itself. */
  datatype Loader = Reference(uri: string) | Inline(text: string)

  /** The validator's answer: it could not run (a schema or document that
      does not load or parse), the document is valid, or it is invalid for
      the listed reasons, in the validator's order. */
  datatype Validation = ValidatorError(cause: string) | Valid | Invalid(details: seq<string>)

  /** The validator, given the schema loader and the document loader. */
  type Validator = (Loader, Loader) -> Validation

  /** The fixed reference every `http` schema is routed to. */
  const FixedReference: string := "file:///home/me/schema.json"

  /** `schemaLoader`: the first of these rules that applies decides.
      A schema starting with "http" loads the fixed reference, whatever the
      rest of it says; one starting with '{' once spaces are trimmed is the
      schema text, untrimmed; a relative path becomes a "file://" reference;
      an absolute path is the reference itself. */
  function SchemaLoader(schema: string): (l: Loader)
    ensures HasPrefix(schema, "http") ==> l == Reference(FixedReference)
    ensures l.Inline? <==> !HasPrefix(schema, "http") && HasPrefix(TrimSpaces(schema), "{")
    ensures l.Inline? ==> l.text == schema
    ensures l.Reference? && !HasPrefix(schema, "http") ==>
      if HasPrefix(schema, "/") then l.uri == schema else l.uri == "file://" + schema
  {
    if HasPrefix(schema, "http") then Reference(FixedReference)
    else if HasPrefix(TrimSpaces(schema), "{") then Inline(schema)
    else if !HasPrefix(schema, "/") then Reference("file://" + schema)
    else Reference(schema)
  }

  /** Every reference the loader builds is a file URI or an absolute path. */
  lemma ReferencesAreFilesOrPaths(schema: string)
    ensures SchemaLoader(schema).Reference? ==>
      HasPrefix(SchemaLoader(schema).uri, "file://") || HasPrefix(SchemaLoader(schema).uri, "/")
  {
    var l := SchemaLoader(schema);
    if l.Reference? {
      if HasPrefix(schema, "http") {
        assert FixedReference[..7] == "file://";
      } else if !HasPrefix(schema, "/") {
        assert ("file://" + schema)[..7] == "file://";
      }
    }
  }

  /** Leading spaces before '{' still make an inline schema, and the schema
      is handed over with its spaces. */
  lemma SpacedInlineSchema(spaces: nat, body: string)
    requires |body| > 0 && body[0] == '{'
    ensures var schema := seq(spaces, _ => ' ') + body;
      SchemaLoader(schema) == Inline(schema)
  {
    var pad := seq(spaces, _ => ' ');
    var schema := pad + body;
    assert schema[spaces] == '{';
    if 4 <= |schema| {
      assert schema[..4][0] == schema[0];
      assert spaces > 0 ==> schema[0] == ' ';
    }
    assert forall k :: 0 <= k < spaces ==> schema[k] == ' ';
    assert LeadingSpaces(schema) == spaces;
    assert TrimSpaces(schema)[0] == '{';
  }

  /** `JSONSchema(schema)`: read the body (putting it back), validate it
      against the routed schema, and turn an invalid verdict into one error
      listing every violation. A read error and a validator error are
      returned unchanged. */
  function JSONSchema(validate: Validator, schema: string, res: Response): (r: Option<Failure>)
    ensures res.body.Failing? ==> r == Some(Raised(res.body.cause))
    ensures res.body.Buffered? ==>
      match validate(SchemaLoader(schema), Inline(ToText(res.body.data)))
      case ValidatorError(cause) => r == Some(Raised(cause))
      case Valid => r.None?
      case Invalid(details) => r == Some(SchemaInvalid(details))
  {
    match ReadBody(res).0
    case Failure(cause) => Some(Raised(cause))
    case Success(buf) =>
      match validate(SchemaLoader(schema), Inline(ToText(buf)))
      case ValidatorError(cause) => Some(Raised(cause))
      case Valid => None
      case Invalid(details) => Some(SchemaInvalid(details))
  }

  /** A validator error is never reported as a list of violations. */
  lemma ValidatorErrorIsNotViolation(validate: Validator, schema: string, res: Response)
    requires res.body.Buffered?
    requires validate(SchemaLoader(schema), Inline(ToText(res.body.data))).ValidatorError?
    ensures JSONSchema(validate, schema, res).Some?
    ensures !JSONSchema(validate, schema, res).value.SchemaInvalid?
  {
  }

  // ---------------------------------------------------------------------------
  // The violation report
  // ---------------------------------------------------------------------------

  lemma {:induction false} ViolationLinesAppend(a: seq<string>, b: seq<string>)
    ensures ViolationLines(a + b) == ViolationLines(a) + ViolationLines(b)
    decreases |b|
  {
    if |b| > 0 {
      var b' := b[..|b| - 1];
      assert (a + b)[..|a + b| - 1] == a + b';
      ViolationLinesAppend(a, b');
    } else {
      assert a + b == a;
    }
  }

  /** Each violation shows up as its own line, verbatim, after those before
      it and ahead of those after it. */
  lemma ViolationsVerbatim(before: seq<string>, detail: string, after: seq<string>)
    ensures Message(SchemaInvalid(before + [detail] + after))
      == SchemaHeader + ViolationLines(before) + "\t- " + detail + "\n" + ViolationLines(after)
  {
    var x, y := ViolationLines(before), ViolationLines(after);
    ViolationLinesAppend(before + [detail], after);
    ViolationLinesAppend(before, [detail]);
    assert ViolationLines([detail]) == ViolationLine(detail) by {
      assert [detail][..0] == [];
    }
    assert ViolationLines(before + [detail] + after) == x + ViolationLine(detail) + y;
    SchemaMessage(before + [detail] + after);
    ReportShape(x, detail, y);
  }

  lemma ReportShape(x: string, detail: string, y: string)
    ensures SchemaHeader + (x + ViolationLine(detail) + y)
      == SchemaHeader + x + "\t- " + detail + "\n" + y
  {
  }

  /** The report built the way the source builds it: the header line, then
      one line per violation appended in order. */
  method AggregateViolations(details: seq<string>) returns (msg: string)
    ensures msg == Message(SchemaInvalid(details))
  {
    msg := SchemaHeader;
    var i := 0;
    while i < |details|
      invariant 0 <= i <= |details|
      invariant msg == SchemaHeader + ViolationLines(details[..i])
    {
      assert details[..i + 1][..i] == details[..i];
      msg := msg + ViolationLine(details[i]);
      i := i + 1;
    }
    assert details[..|details|] == details;
  }

  // ---------------------------------------------------------------------------
  // The report as `fmt.Errorf(msg)` prints it
  // ---------------------------------------------------------------------------

  predicate IsAsciiLetter(c: char) {
    ('a' <= c <= 'z') || ('A' <= c <= 'Z')
  }

  /** Format strings whose every '%' is "%%", a letter verb, or the last
      character: the part of `fmt`'s syntax `ErrorfText` renders. */
  predicate PlainVerbs(s: string)
    decreases |s|
  {
    if |s| == 0 then true
    else if s[0] != '%' then PlainVerbs(s[1..])
    else |s| == 1 || ((s[1] == '%' || IsAsciiLetter(s[1])) && PlainVerbs(s[2..]))
  }

  /** The text `fmt.Errorf(format)` yields with no arguments: "%%" prints
      '%', a verb with no argument left prints "%!" verb "(MISSING)", and a
      trailing '%' prints "%!(NOVERB)". */
  function ErrorfText(format: string): (r: string)
    requires PlainVerbs(format)
    ensures (forall i :: 0 <= i < |format| ==> format[i] != '%') ==> r == format
    decreases |format|
  {
    if |format| == 0 then ""
    else if format[0] != '%' then [format[0]] + ErrorfText(format[1..])
    else if |format| == 1 then "%!(NOVERB)"
    else if format[1] == '%' then "%" + ErrorfText(format[2..])
    else "%!" + [format[1]] + "(MISSING)" + ErrorfText(format[2..])
  }

  lemma {:induction false} ErrorfTextPlainPrefix(a: string, b: string)
    requires NoPercent(a)
    requires PlainVerbs(b)
    ensures PlainVerbs(a + b)
    ensures ErrorfText(a + b) == a + ErrorfText(b)
    decreases |a|
  {
    if |a| > 0 {
      var ab := a + b;
      assert ab[0] == a[0] && a[0] != '%';
      assert ab[1..] == a[1..] + b;
      ErrorfTextPlainPrefix(a[1..], b);
      assert PlainVerbs(ab) == PlainVerbs(ab[1..]);
      assert ErrorfText(ab) == [a[0]] + ErrorfText(ab[1..]);
      assert [a[0]] + (a[1..] + ErrorfText(b)) == a + ErrorfText(b);
    } else {
      assert a + b == b;
    }
  }

  predicate NoPercent(s: string) {
    forall i :: 0 <= i < |s| ==> s[i] != '%'
  }

  lemma NoPercentConcat(a: string, b: string)
    requires NoPercent(a) && NoPercent(b)
    ensures NoPercent(a + b)
  {
    assert forall i :: 0 <= i < |a + b| ==> (a + b)[i] == if i < |a| then a[i] else b[i - |a|];
  }

  lemma HeaderHasNoPercent()
    ensures NoPercent(SchemaHeader)
  {
    HeaderStartHasNoPercent();
    HeaderEndHasNoPercent();
    NoPercentConcat(SchemaHeaderStart, SchemaHeaderEnd);
  }

  lemma HeaderStartHasNoPercent()
    ensures NoPercent(SchemaHeaderStart)
  {
  }

  lemma HeaderEndHasNoPercent()
    ensures NoPercent(SchemaHeaderEnd)
  {
  }

  /** After a text without '%', the verb "%d" with nothing to print is
      rendered as "%!d(MISSING)", so the output differs from the input. */
  lemma MissingVerbChangesText(plain: string)
    requires NoPercent(plain)
    ensures PlainVerbs(plain + "%d'\n")
    ensures ErrorfText(plain + "%d'\n") != plain + "%d'\n"
  {
    var tail := "%d'\n";
    assert ErrorfText(tail) == "%!d(MISSING)'\n";
    ErrorfTextPlainPrefix(plain, tail);
    assert |ErrorfText(plain + tail)| == |plain| + 14;
  }

  lemma AppendShape(h: string, v: string, lead: string)
    requires v == lead + "%d'\n"
    ensures h + v == (h + lead) + "%d'\n"
  {
  }

  /** The source hands the assembled report to `fmt.Errorf` as its format
      string, so a violation whose text holds a '%' verb is garbled: a
      violation such as "id: Does not match pattern '%d'" comes out with
      "%!d(MISSING)" in place of "%d". */
  lemma PercentInViolationGarbled(text: string)
    requires NoPercent(text)
    ensures var details := [text + "%d'"];
      var report := SchemaHeader + ViolationLines(details);
      && PlainVerbs(report)
      && ErrorfText(report) != Message(SchemaInvalid(details))
  {
    var detail := text + "%d'";
    var details := [detail];
    var lead := "\t- " + text;
    HeaderHasNoPercent();
    assert NoPercent("\t- ");
    NoPercentConcat("\t- ", text);
    NoPercentConcat(SchemaHeader, lead);
    assert ViolationLines(details) == ViolationLine(detail) by {
      assert details[..0] == [];
    }
    assert ViolationLine(detail) == lead + "%d'\n";
    AppendShape(SchemaHeader, ViolationLine(detail), lead);
    SchemaMessage(details);
    MissingVerbChangesText(SchemaHeader + lead);
  }
}

=== FILE: status.dfy ===
/** Status code assertions (`assert/status.go`). Both checks look at the
    status code only. */
module StatusAssert {
  import opened Wrappers
  import opened Failures
  import opened Http

  /** `StatusEqual(code)`: the status must be exactly `code`. */
  function StatusEqual(code: int, res: Response): (r: Option<Failure>)
    ensures r.None? <==> res.status == code
    ensures r.Some? ==> r.value == StatusMismatch(res.status, code)
  {
    if res.status != code then Some(StatusMismatch(res.status, code)) else None
  }

  /** `StatusRange(start, end)`: the status must lie in `[start, end]`, both
      ends included. */
  function StatusRange(start: int, end: int, res: Response): (r: Option<Failure>)
    ensures r.None? <==> start <= res.status <= end
    ensures r.Some? ==> r.value == StatusOutOfRange(res.status, start, end)
  {
    if start <= res.status && res.status <= end then None
    else Some(StatusOutOfRange(res.status, start, end))
  }

  /** A range whose start lies above its end accepts no status at all. */
  lemma EmptyRangeRejects(start: int, end: int, res: Response)
    requires start > end
    ensures StatusRange(start, end, res).Some?
  {
  }

  /** Splitting a range at `mid` splits the statuses it accepts: a status
      passes `[start, end]` exactly when it passes one of `[start, mid - 1]`
      and `[mid, end]`, and never both. */
  lemma RangeSplit(start: int, mid: int, end: int, res: Response)
    requires start <= mid <= end + 1
    ensures StatusRange(start, end, res).None?
      <==> (StatusRange(start, mid - 1, res).None? || StatusRange(mid, end, res).None?)
    ensures !(StatusRange(start, mid - 1, res).None? && StatusRange(mid, end, res).None?)
  {
  }
}

=== FILE: text.dfy ===
/** Byte and text helpers shared by the assertion engine.

    A Go `string` is a sequence of bytes. The model represents it as a Dafny
    `string` holding one character per byte; response bodies are `seq<byte>`.
    Decimal conversion follows `strconv.Itoa` / `fmt`'s `%d` and
    `strconv.Atoi` on a 64-bit platform. */
module Text {
  import opened Wrappers

  type byte = b: int | 0 <= b < 256

  const MinInt64: int := -0x8000_0000_0000_0000
  const MaxInt64: int := 0x7fff_ffff_ffff_ffff

  predicate InInt64(n: int) {
    MinInt64 <= n <= MaxInt64
  }

  /** Go's `string(b)` conversion of a byte slice: one character per byte. */
  function ToText(b: seq<byte>): (s: string)
    ensures |s| == |b|
    ensures forall i :: 0 <= i < |b| ==> s[i] as int == b[i]
  {
    seq(|b|, i requires 0 <= i < |b| => b[i] as char)
  }

  /** A string whose every character stands for one byte. */
  predicate IsByteString(s: string) {
    forall i :: 0 <= i < |s| ==> s[i] as int < 256
  }

  /** Go's `[]byte(s)` conversion of a string. */
  function ToBytes(s: string): (b: seq<byte>)
    requires IsByteString(s)
    ensures |b| == |s|
    ensures forall i :: 0 <= i < |s| ==> b[i] == s[i] as int
  {
    seq(|s|, i requires 0 <= i < |s| => s[i] as int)
  }

  lemma ToBytesToText(s: string)
    requires IsByteString(s)
    ensures ToText(ToBytes(s)) == s
  {
  }

  predicate HasPrefix(s: string, prefix: string) {
    |prefix| <= |s| && s[..|prefix|] == prefix
  }

  // ---------------------------------------------------------------------------
  // Decimal digits
  // ---------------------------------------------------------------------------

  predicate IsDigit(c: char) {
    '0' <= c <= '9'
  }

  predicate AllDigits(s: string) {
    forall i :: 0 <= i < |s| ==> IsDigit(s[i])
  }

  function DigitChar(d: int): (c: char)
    requires 0 <= d < 10
    ensures IsDigit(c) && c as int - '0' as int == d
  {
    (d + '0' as int) as char
  }

  /** The value of a run of decimal digits, most significant first. */
  function DigitsValue(s: string): nat
    requires AllDigits(s)
  {
    if |s| == 0 then 0
    else DigitsValue(s[..|s| - 1]) * 10 + (s[|s| - 1] as int - '0' as int)
  }

  /** The shortest decimal rendering of a natural number. */
  function DigitsOf(n: nat): (s: string)
    ensures 0 < |s| && AllDigits(s)
    ensures n < 10 <==> |s| == 1
  {
    if n < 10 then [DigitChar(n)] else DigitsOf(n / 10) + [DigitChar(n % 10)]
  }

  lemma {:induction false} DigitsRoundTrip(n: nat)
    ensures DigitsValue(DigitsOf(n)) == n
  {
    if n >= 10 {
      var s := DigitsOf(n);
      assert s[..|s| - 1] == DigitsOf(n / 10);
      DigitsRoundTrip(n / 10);
    }
  }

  /** `strconv.Itoa(n)`, which is also what `%d` prints. */
  function Itoa(n: int): (s: string)
    ensures 0 < |s|
    ensures n >= 0 ==> AllDigits(s)
    ensures n < 0 ==> s[0] == '-' && AllDigits(s[1..])
  {
    if n < 0 then "-" + DigitsOf(-n) else DigitsOf(n)
  }

  /** `strconv.Atoi`: an optional sign followed by at least one decimal
      digit, and nothing else; a value outside the 64-bit range is an error. */
  function Atoi(s: string): (r: Option<int>)
    ensures r.Some? ==> InInt64(r.value)
    ensures r.Some? ==> 0 < |s| && (IsDigit(s[0]) || s[0] == '+' || s[0] == '-')
    ensures r.Some? ==> AllDigits(s[1..]) && (IsDigit(s[0]) || 1 < |s|)
  {
    if |s| == 0 then None
    else
      var digits := if s[0] == '-' || s[0] == '+' then s[1..] else s;
      if |digits| == 0 || !AllDigits(digits) then None
      else
        var v: int := if s[0] == '-' then -(DigitsValue(digits) as int) else DigitsValue(digits);
        if InInt64(v) then Some(v) else None
  }

  /** Atoi reads back what Itoa prints, for every 64-bit integer. */
  lemma AtoiItoa(n: int)
    requires InInt64(n)
    ensures Atoi(Itoa(n)) == Some(n)
  {
    var s := Itoa(n);
    if n < 0 {
      assert s[1..] == DigitsOf(-n);
      DigitsRoundTrip(-n);
    } else {
      DigitsRoundTrip(n);
    }
  }

  // ---------------------------------------------------------------------------
  // Searching and trimming
  // ---------------------------------------------------------------------------

  /** `strings.LastIndex(s, string(c))` for a single byte `c`: -1 when absent. */
  function LastIndex(s: string, c: char): (r: int)
    ensures -1 <= r < |s|
    ensures 0 <= r ==> s[r] == c && forall i :: r < i < |s| ==> s[i] != c
    ensures r < 0 ==> forall i :: 0 <= i < |s| ==> s[i] != c
  {
    if |s| == 0 then -1
    else if s[|s| - 1] == c then |s| - 1
    else LastIndex(s[..|s| - 1], c)
  }

  /** `strings.Trim(s, " ")`: drops every leading and trailing space. */
  function TrimSpaces(s: string): (r: string)
    ensures |r| > 0 ==> r[0] != ' ' && r[|r| - 1] != ' '
    ensures var i := LeadingSpaces(s);
      && i + |r| <= |s|
      && r == s[i..i + |r|]
      && (forall k :: i + |r| <= k < |s| ==> s[k] == ' ')
  {
    var i := LeadingSpaces(s);
    var j := TrailingSpacesFrom(s, i);
    assert s[i..j] == s[i..i + |s[i..j]|];
    s[i..j]
  }

  /** The number of spaces `s` starts with. */
  function LeadingSpaces(s: string): (n: nat)
    ensures n <= |s|
    ensures forall k :: 0 <= k < n ==> s[k] == ' '
    ensures n < |s| ==> s[n] != ' '
  {
    if |s| > 0 && s[0] == ' ' then 1 + LeadingSpaces(s[1..]) else 0
  }

  /** The index where the trailing run of spaces of `s` begins, never below `lo`. */
  function TrailingSpacesFrom(s: string, lo: nat): (m: nat)
    requires lo <= |s|
    ensures lo <= m <= |s|
    ensures forall k :: m <= k < |s| ==> s[k] == ' '
    ensures lo < m ==> s[m - 1] != ' '
    decreases |s|
  {
    if lo < |s| && s[|s| - 1] == ' ' then TrailingSpacesFrom(s[..|s| - 1], lo) else |s|
  }

  // ---------------------------------------------------------------------------
  // Quoting
  // ---------------------------------------------------------------------------

  /** A hexadecimal digit as Go writes it, in lower case. */
  function LowerHex(d: int): (c: char)
    requires 0 <= d < 16
  {
    if d < 10 then ('0' as int + d) as char else ('a' as int + d - 10) as char
  }

  /** One character as `strconv.Quote` writes it inside double quotes. */
  function QuoteChar(c: char): (r: string)
    ensures |r| > 0
    ensures r[0] == '\\' || r == [c]
  {
    if c == '"' || c == '\\' then ['\\', c]
    else if ' ' <= c <= '~' || c >= 0x80 as char then [c]
    else if c == 0x07 as char then "\\a"
    else if c == 0x08 as char then "\\b"
    else if c == 0x0c as char then "\\f"
    else if c == '\n' then "\\n"
    else if c == '\r' then "\\r"
    else if c == '\t' then "\\t"
    else if c == 0x0b as char then "\\v"
    else "\\x" + [LowerHex(c as int / 16), LowerHex(c as int % 16)]
  }

  function QuoteChars(s: string): string {
    if |s| == 0 then "" else QuoteChar(s[0]) + QuoteChars(s[1..])
  }

  /** `strconv.Quote`, which is what `%#v` prints for a string. */
  function GoQuote(s: string): (r: string)
    ensures 2 <= |r| && r[0] == '"' && r[|r| - 1] == '"'
  {
    "\"" + QuoteChars(s) + "\""
  }
}

=== FILE: type.dfy ===
/** The Content-Type assertion (`assert/type.go`). The alias table (json,
    html, xml, text, form, urlencoded in the HTTP client library) is a
    parameter: alias name to the pattern it stands for. */
module TypeAssert {
  import opened Wrappers
  import opened Failures
  import opened Http
  import opened Regex

  /** The pattern `Type(kind)` matches with: the alias's pattern when `kind`
      is an alias, `kind` itself otherwise. */
  function ResolveType(aliases: map<string, string>, kind: string): (pattern: string)
    ensures kind in aliases ==> pattern == aliases[kind]
    ensures kind !in aliases ==> pattern == kind
  {
    if kind in aliases then aliases[kind] else kind
  }

  /** `Type(kind)`: the resolved pattern must match somewhere in the
      Content-Type value. The failure reports `kind` as written, not the
      pattern it resolved to. */
  function Type(re: Engine, aliases: map<string, string>, kind: string, res: Response): (r: Option<Failure>)
    ensures var value := Get(res.header, "Content-Type");
      && (r.None? <==> MatchString(re, ResolveType(aliases, kind), value))
      && (r.Some? ==> r.value == ContentTypeMismatch(kind, value))
  {
    var pattern := if kind in aliases then aliases[kind] else kind;
    var value := Get(res.header, "Content-Type");
    if !MatchString(re, pattern, value) then Some(ContentTypeMismatch(kind, value)) else None
  }

  /** A name outside the alias table is used as the pattern verbatim; an
      alias is replaced by its pattern. */
  lemma TypeResolution(re: Engine, aliases: map<string, string>, kind: string, res: Response)
    ensures kind !in aliases ==>
      (Type(re, aliases, kind, res).None? <==> MatchString(re, kind, Get(res.header, "Content-Type")))
    ensures kind in aliases ==>
      (Type(re, aliases, kind, res).None? <==> MatchString(re, aliases[kind], Get(res.header, "Content-Type")))
  {
  }

  /** With no Content-Type header the pattern is matched against "". */
  lemma AbsentContentType(re: Engine, aliases: map<string, string>, kind: string, res: Response)
    requires "Content-Type" !in res.header
    ensures Type(re, aliases, kind, res).None? <==> MatchString(re, ResolveType(aliases, kind), "")
  {
    ContentTypeCanonical();
  }

  /** An uncompilable pattern counts as a mismatch. */
  lemma UncompilableTypeFails(re: Engine, aliases: map<string, string>, kind: string, res: Response)
    requires !re.compiles(ResolveType(aliases, kind))
    ensures Type(re, aliases, kind, res) == Some(ContentTypeMismatch(kind, Get(res.header, "Content-Type")))
  {
  }
}

=== FILE: wrappers.dfy ===
/** The wrappers used throughout the model: a Go function that returns
    `(T, error)` becomes a `Result<T, E>`, and an `error` that may be nil
    becomes an `Option<E>` (None is nil). `Option` also holds a value that
    may be absent. */
module Wrappers {

  datatype Option<+T> = None | Some(value: T)

  datatype Result<+T, +E> = Success(value: T) | Failure(error: E)
}
